=== FILE: README.md ===
# RTT and throughput probe protocol: client and server core

A Dafny model of the measurement protocol of `client.c` and `server.c`.

The client:
- validates its command line;
- opens one connection per payload size of a table;
- sends a HELLO line announcing the measure type, the probe count, the payload size and the server delay;
- sends numbered MEASURE frames of exactly `payload + 8` bytes;
- reads each echo back.

The server:
- checks its port;
- parses the HELLO and replies `200 OK - Ready`;
- runs a probe loop that echoes a frame carrying the expected probe number and advances that number. Any other frame gets the other of its two receive buffers sent back.

The modules follow that structure:

- `Text`: the C-string view of a buffer (the characters before the first NUL), `isspace`, decimal digits, `%05d`.
- `Scanf`: the part of `sscanf` the server's two format strings use. It covers white-space directives, `%c`, `%s`, and `%d`/`%ld`, stopping at the first failing directive, plus step lemmas for the input shapes the client produces.
- `Client`: `fillParam`, the HELLO line and its `snprintf` bound, the MEASURE frame written over the send buffer, the run plan, the status-line checks, and the probe loop.
- `Server`: the port check of `open`, `parseHello`, `parseMeasure`, and the handshake. The serve loop is a step function over the state (expected number, buffer receiving next, other buffer), with traces over runs of frames.
- `Session`: the two programs against each other. It holds the cross-file round trips (HELLO and MEASURE), what a whole run of probes does in the serve loop, the BYE, and the client's verdict on the replies.

The model follows the code where it departs from what a reader of the protocol would expect: a BYE that ends the loop, an error reply to a mismatched probe, and one start number for both sides.
- There is no BYE branch: a BYE is a rejected probe.
- A mismatched probe gets no error reply: the server sends back the buffer it did not receive into.
- The server's expected counter starts at 1 while the client numbers from 0.
- `main` ignores the result of `sendHello` (client.c:109). A refused or unexpected HELLO reply does not stop the probes, so the run plan and the probe loop do not depend on it.

## Model

| member | source | states |
|---|---|---|
| `Text.Pad5` | client.c:35 | `%05d` of n is a digit run of at least five characters whose value is n. It is exactly five characters when n < 100000. |
| `Text.ValueBelow` | client.c:35 | A run of k digits has a value below 10^k. |
| `Text.Pad5Width` | client.c:35 | `%05d` of n is longer than five characters exactly when n >= 100000, and no longer than k >= 5 characters exactly when n < 10^k. |
| `Scanf.Run` | server.c:152 | `sscanf` runs the directives in order and stores at most one item per directive. |
| `Scanf.Count` | server.c:153 | `sscanf`'s return value: EOF (-1) when the input ran out before anything was stored, otherwise the number of items stored. It carries no contract of its own: its bounds are stated in `Scanf.RunStoresEveryConversion`. |
| `Scanf.RunStoresEveryConversion` | server.c:166-167 | Each conversion stores exactly one item and scanning stops early only at a conversion. So `sscanf` returns between -1 and the number of conversions. It returns exactly that number when the whole format matched, and scanning stops early only when it returns fewer. |
| `Scanf.LeadingChar` | server.c:152-153 | With `%c` first, `sscanf` returns EOF exactly on an empty C string; otherwise the phase it stores is the first character. |
| `Client.TakePair` | client.c:202-222 | One flag/value pair is accepted exactly when the flag is known and its value valid: probes > 0, delay >= 0, measure "rtt" or "thput". After an accepted pair, each setting holds the value of the last pair naming it, or its default. |
| `Client.FillParam` | client.c:187-241 | The result is -1 exactly when argc is outside 3..10, argc is even, or some pair is invalid. Otherwise the result is argc - 2, the size index is 0, and probes (default 20), delay (default 0) and measure come from the last flag naming each. |
| `Client.Kept` | client.c:245-250 | What `snprintf` keeps of a text for a `limit`-byte buffer, read back by `strlen`: a prefix of the text of exactly min(len, limit - 1) characters. |
| `Client.EncodeHello` | client.c:245-250 | The bytes `sendHello` sends are a prefix of the formatted HELLO of exactly min(len, 26) characters. They are the whole HELLO when it is shorter than the 27-byte buffer. |
| `Client.EncodeWideHello` | client.c:245-250 | Corrected: the HELLO formatted into a buffer as large as the server's 128-byte HELLO receive, a prefix of the formatted HELLO of exactly min(len, 127) characters. |
| `Client.HelloNotTruncated` | client.c:245-248 | For "rtt"/"thput" and probe counts, sizes and delays below 100000, the HELLO is `h <type> <5 digits> <5 digits> <5 digits>\n`. It has 21 + len(type) <= 26 characters, so the 27-byte `snprintf` never cuts it. |
| `Client.Snprintf` | client.c:117-118 | `snprintf(buf, limit, …)` with n = min(len, limit - 1) stores the first n characters of the text, a NUL at byte n, and leaves every later byte untouched. Read back as a C string, a NUL-free text is cut to `limit - 1` characters. |
| `Client.InitializePayload` | client.c:269-274 | The buffer has the requested length and every byte is '-'. |
| `Client.WriteMeasure` | client.c:117-119 | With n = min(len, msg_size - 1), the first n characters of the MEASURE text are written over the buffer. When n < msg_size - 1 a NUL follows at byte n and bytes n+1 to msg_size - 2 keep their old values. Byte msg_size - 1 is a newline, and bytes past msg_size keep their old values. |
| `Client.MeasureFrame` | client.c:117-121 | The bytes sent for one probe are exactly msg_size = payload + 8 bytes. |
| `Client.NumberFitsBelow` | client.c:117-119 | A probe number fits its frame (its `%05d` digits take at most payload + 5 characters, so the head "m <digits>" and the byte after it come before the closing newline) exactly when it is below 10^(payload + 5). Every number below 100000 fits any frame, and the 9-byte frames of the first rtt run take numbers below 1000000. |
| `Client.MeasureFrameShape` | client.c:117-119 | A frame is payload + 8 bytes: the MEASURE text cut to msg_size - 1 characters, then NUL if the text was shorter, then '-' filler, with '\n' as the last byte. With a payload and a five-digit number it begins "m <5 digits> ". |
| `Client.WriteMeasureOverResidue` | client.c:117-119 | Whatever an earlier HELLO or shorter frame left past the text, the frame written over the buffer equals the frame of a fresh buffer, and the filler stays for the next probe. |
| `Client.HelloKeepsFiller` | client.c:245-248 | Formatting the HELLO into the send buffer leaves the filler past the longest MEASURE text untouched. |
| `Client.FirstRttRunOverflows` | client.c:93-95 | The first rtt run's buffers are 9 bytes, but its HELLO needs 25 bytes including the NUL. |
| `Client.SendBufferSize` | client.c:93-95 | The corrected buffer length holds a frame and any HELLO write or reply of up to 27 bytes. It is one of those two lengths. |
| `Client.PlanFrom` | client.c:92-171 | From size index i on, run j uses payload table[i+j] and frame length table[i+j] + 8, and its HELLO announces table[i+j]. |
| `Client.RunPlan` | client.c:84-88 | "rtt" gives 6 runs, any other type 5, in table order. Each run's HELLO announces the payload the run then sends. |
| `Client.ClassifyHelloReply` | client.c:252-260 | The reply reads as ready exactly when its C string is "200 OK - Ready", and as refused exactly when it is the en-dash refusal line. |
| `Client.SendHelloResult` | client.c:252-261 | `sendHello` returns 1 exactly on the ready line and -1 otherwise. |
| `Client.HyphenRefusalIsUnexpected` | client.c:21 | A refusal spelled with a hyphen is not HELLO_REFUSED and falls into the unexpected-reply branch. |
| `Client.IsErrorMeasure` | client.c:291-293 | `isErrorMeasure`: the reply, read as a C string, equals the invalid-measurement line. It carries no contract of its own; `Client.ErrorMeasureBytes` states what it means for the bytes. |
| `Client.ErrorMeasureBytes` | client.c:291-293 | A reply reads as the invalid-measurement line exactly when it begins with that line and ends or holds a NUL right after it. |
| `Client.FrameIsNeverInvalid` | client.c:141-145 | A MEASURE frame never reads as the invalid-measurement line, so an echo never ends the run. |
| `Client.EchoIsNeverInvalid` | client.c:291-293 | An echoed MEASURE frame, whatever follows it, never reads as the invalid-measurement line. |
| `Client.ProbeLoop` | client.c:115-158 | From probe p, sequence numbers p, p+1, … are sent once each in order. The loop completes exactly when no reply fails, closes or reads as invalid, having then sent all of them with 0 % loss. Otherwise it stops at the first such reply. |
| `Client.ProbeRun` | client.c:113-163 | A run sends 0, 1, …, n-1 in order. It completes with loss 0 exactly when no reply aborts it; otherwise it aborts at the first aborting reply, having sent up to and including that probe. |
| `Client.SendMeasure` | client.c:117-122 | Writing probe p's frame over the send buffer extends the frames sent so far by exactly probe p's frame and keeps the filler for probe p+1. |
| `Client.HelloBuffer` | client.c:93-109 | The send buffer after `initializePayload` and the HELLO `snprintf` starts with the kept HELLO characters and holds filler past the MEASURE text. |
| `Client.ProbeRunDecidedByFirst` | client.c:141-145 | When every reply after the first passes, the first one decides the run: it completes when that reply passes and otherwise aborts at probe 0 for that reply's reason. |
| `Client.RunProbes` | client.c:113-158 | Running the loop ends as ProbeRun says. The bytes sent are the frames of probes 0, 1, … in order, one per number ProbeRun sends. The loop runs on buffers of `Client.SendBufferSize(payload)` bytes, the corrected length, not on the msg_size buffers of client.c:94-95. |
| `Server.OpenPort` | server.c:119-132 | `open` goes on exactly when 0 < port < 65535, and then stores that port in `server_addr->sin_port`. |
| `Server.TopPortRefused` | server.c:120-124 | 65535 fits in 16 bits and the usage text offers it, but it is refused. |
| `Server.OpenPortGuardsCast` | server.c:120-133 | The range check guards the `(uint16_t)` cast: every port `open` accepts is stored unchanged, every port the cast would change is refused, and of the ports the cast keeps exactly 0 and 65535 are refused. |
| `Server.ParseHello` | server.c:146-160 | `parseHello` fails exactly when the C string is empty or does not start with 'h'. On success the first probe number is 1. |
| `Server.ParseMeasure` | server.c:162-171 | `parseMeasure` returns 1 exactly when `sscanf` did not return EOF, the phase is 'm' and the converted probe number is the expected one. It carries no contract of its own; what it decides on real frames is stated in `Server.ParseMeasureOfHead`, `Server.HeadDecides` and `Session.MeasureRoundTrip`. |
| `Server.MatchNeedsPhase` | server.c:162-171 | `parseMeasure` succeeds only on a C string that starts with 'm'. |
| `Server.WrongPhaseRejected` | server.c:166-169 | A message whose first byte is neither NUL nor 'm' never matches. |
| `Server.ParseMeasureOfHead` | server.c:162-171 | On a message starting "m <digits>" and a non-NUL white-space character, `parseMeasure` succeeds exactly when the digits' value is the expected number, whatever follows. |
| `Server.HeadDecides` | server.c:162-171 | A chunk with a well-formed head, followed by any buffer residue, is accepted exactly when its head number is the expected one. |
| `Server.Receive` | server.c:88 | `recv` overwrites the buffer's head with the bytes received and leaves the rest of the buffer as it was. |
| `Server.AcceptHelloAsWritten` | server.c:68-81 | As written, a receive error exits and a HELLO that does not parse breaks out with nothing sent. A HELLO that parses is answered with the 15 bytes of the reply. It is accepted exactly when it is also exactly as long as that reply, and otherwise the server exits on the send check. |
| `Server.AcceptHello` | server.c:68-81 | Corrected: a receive error exits, and a HELLO that does not parse breaks out with nothing sent. A HELLO that parses is accepted with the configuration `parseHello` returns and answered with the 15-byte reply. The send-mismatch exit never happens. |
| `Server.Data1` | server.c:88 | receivedData1 is the buffer receiving next when the expected number is even, and the other buffer when it is odd. It carries no contract of its own; `Server.AnswerByParity` states the loop in its terms. |
| `Server.Data2` | server.c:88 | receivedData2 is the buffer receiving next when the expected number is odd. It carries no contract of its own; `Server.AnswerByParity` states the loop in its terms. |
| `Server.FreshState` | server.c:83-88 | A connection starts expecting 1, with receivedData1 and receivedData2 holding their initial bytes. |
| `Server.AlignedState` | server.c:85 | Corrected start: the counter begins at 0, the client's first number. |
| `Server.Answer` | server.c:93-110 | The verdict is the reply's verdict, and the buffers keep their lengths. The reply has as many bytes as were received. |
| `Server.AnswerByParity` | server.c:86-110 | In the program's terms, the frame lands in receivedData1 when the expected number is even and in receivedData2 when it is odd. A match is echoed from that buffer and a mismatch answered from the other. Only a match advances the number. |
| `Server.AnswerSwaps` | server.c:93-110 | An accepted frame is echoed unchanged and its buffer becomes the other buffer. A rejected one is answered with the other buffer, which keeps its bytes. |
| `Server.Serve` | server.c:86-111 | The loop exits exactly on a receive error. Otherwise the verdict is `parseMeasure` of the receiving buffer against the expected number. |
| `Server.ServeAll` | server.c:86-112 | Over a run of frames there is one reply and one verdict per frame, each reply as long as its frame, and the counter advances by the number of acceptances. |
| `Server.RepliesResendLastAccepted` | server.c:93-100 | With equal-length frames, each accepted frame is echoed, and each rejected frame gets back the frame accepted most recently before it. |
| `Server.ServeExpectedHead` | server.c:101-110 | A frame carrying the expected number is accepted and echoed, and the counter advances by one. |
| `Server.ServeOtherHead` | server.c:93-100 | A frame carrying another number is rejected and answered from the other buffer, and the counter stays. |
| `Server.InOrderAllAccepted` | server.c:85-112 | Frames numbered e, e+1, … from the expected e are all accepted and echoed, and the counter ends at e + count. |
| `Server.RejectedThenInOrder` | server.c:85-112 | One wrongly numbered frame followed by frames numbered from the expected one: only the first is rejected, with the stale other buffer as its reply, and the rest are echoed. |
| `Session.FrameHeadNumber` | client.c:117-119 | When p fits its frame, the head of probe p's frame carries p. |
| `Session.MeasureRoundTrip` | server.c:162-171 | When p fits its frame, `parseMeasure` on a buffer starting with the client's frame for probe p succeeds exactly when p is the expected number, whatever follows the frame. |
| `Session.CutFrameMisread` | client.c:117-119 | As written: when p does not fit its frame, the frame's head carries the first payload + 5 digits of p, a smaller number, and `parseMeasure` rejects probe p even when the server expects p. |
| `Session.ScanHelloLine` | server.c:152 | "%c %s %ld %ld %d" on a HELLO line stores 'h', then the size and the delay as its fourth and fifth items. |
| `Session.ParseHelloOfLine` | server.c:146-160 | `parseHello` on a buffer starting with a HELLO line takes the message size from the fourth field and the delay from the fifth, whatever follows. |
| `Session.EncodeHelloIsLine` | client.c:244-248 | For probe counts, sizes and delays below 100000, the client's HELLO is the HELLO line of its three zero-padded numbers. |
| `Session.HelloRoundTrip` | server.c:146-160 | For probe counts, sizes and delays below 100000, parsing the client's HELLO on the server recovers the payload size and delay the client announced, and starts counting at 1. |
| `Session.ScanCutHelloLine` | server.c:152 | "%c %s %ld %ld %d" on a HELLO line whose last number is followed by anything but a digit stores 'h', then the fourth and fifth fields' values. |
| `Session.ParseHelloOfCutLine` | server.c:146-160 | `parseHello` on a HELLO line with no newline, followed by a non-digit or nothing, takes the size from the fourth field and the delay from the fifth. |
| `Session.CutThputHelloMisreadsDelay` | client.c:245-248 | As written: a thput HELLO with five-digit probes and size and a delay of 1000000 or more is cut to 26 characters, and the server reads the delay as its first six digits, a smaller number. |
| `Session.WideHelloIsWhole` | client.c:245-248 | Corrected: with every field below 2^31, the HELLO is at most 41 characters and the 128-byte buffer keeps it whole. |
| `Session.WideHelloRoundTrip` | server.c:146-160 | Corrected: for every field below 2^31, the server parses the whole HELLO back to the size and delay the client announced. |
| `Session.FramesNumberedFrom` | client.c:113-119 | When the run's last number n-1 fits its frame, the frames of probes from k to n-1 carry k, k+1, … at their heads. |
| `Session.ProbeZeroOnFreshConnection` | server.c:85-100 | Probe 0 on a fresh connection is rejected and answered with the head of receivedData1, and the counter stays at 1. |
| `Session.OnlyFirstProbeRejected` | server.c:85 | As written, when n-1 fits its frame: in the stream 0, 1, …, n-1, only probe 0 is rejected, and its answer is receivedData1's initial bytes. Every later probe is accepted and echoed unchanged, and the counter ends at n. |
| `Session.AlignedProbesAllAccepted` | client.c:113 | Corrected, when the run's last number fits its frame: with the counter starting at the client's first number, every probe is accepted and echoed unchanged. |
| `Session.HelloLength` | client.c:250 | For probe counts, sizes and delays below 100000, the client's HELLO is 24 or 26 bytes, well within the server's 128-byte receive. |
| `Session.HandshakeAlwaysExits` | server.c:77-81 | As written, for probe counts, sizes and delays below 100000: every HELLO the client sends parses and is answered with the 15-byte reply, but the server then exits on the send check. |
| `Session.HandshakeAccepts` | server.c:73-81 | Corrected, for probe counts, sizes and delays below 100000: the client's HELLO is answered with the 15-byte reply and accepted with the size and delay it announced. |
| `Session.HelloReplyIsReady` | server.c:77 | The server's reply (NUL included), whatever follows it in the client's buffer, is the ready line `sendHello` waits for. |
| `Session.ByeIsRejectedProbe` | server.c:86-112 | A BYE is a rejected probe: the counter stays and the other buffer goes back. Every later empty `recv` is rejected again from the same state, so the loop never ends. |
| `Session.RepliesOfSent` | server.c:93-110 | Replies made of a stale first answer followed by the echoes of frames 1 to n-1 are `Session.ServerReplies`. |
| `Session.ServedRepliesAreServerReplies` | server.c:85-112 | When the run's last number fits its frame, `Session.ServerReplies` are, one for one, what the serve loop as written sends for a run's frames on a fresh connection. |
| `Session.LaterReplyPasses` | client.c:141-145 | Every reply after the first echoes its own frame, so the client's check never ends the run there. |
| `Session.RunCompletesUnlessStaleReplyInvalid` | client.c:141-145 | With `Session.ServerReplies` as the replies, a run completes exactly when the stale reply to probe 0 does not read as the invalid-measurement line. Otherwise it aborts at probe 0. |
| `Session.ServedRunCompletesUnlessStaleReplyInvalid` | client.c:141-145 | When the run's last number fits its frame, against the serve loop as written, with each reply what the loop sends, a run completes exactly when receivedData1's initial bytes, sent back for probe 0, do not read as the invalid-measurement line. Otherwise it aborts at probe 0. |

## Left out

- Sockets are not modelled (`socket`, `connect`, `bind`, `listen`, `accept`, `close`). A `recv` is an input value: some bytes or an error. A `send` is the bytes it sends, and send failures are not modelled.
- The serve-loop lemmas assume each `recv` returns exactly one client frame. TCP stream framing and partial reads are not modelled.
- The server sizes its buffers to the announced payload while frames are payload + 8 bytes. The run lemmas take buffers at least a frame long, so this stream-level mismatch is left out.
- `Server.InOrderAllAccepted`: requires every frame to fit the receive buffer. The source receives at most msg_size bytes and leaves the rest in the stream.
- `Session.MeasureRoundTrip`: holds for probe numbers that fit their frame (`Client.NumberFits`), as do `Session.FrameHeadNumber`, and, for the run's last number, `Session.FramesNumberedFrom`, `Session.OnlyFirstProbeRejected`, `Session.AlignedProbesAllAccepted`, `Session.ServedRepliesAreServerReplies` and `Session.ServedRunCompletesUnlessStaleReplyInvalid`. `-p` allows any probe count above 0 (client.c:202-206). With payload 1, probe numbers from 1000000 on do not fit: the frame is cut, and `Session.CutFrameMisread` states what the server then reads. What the serve loop does for the rest of such a run is not stated.
- `Session.OnlyFirstProbeRejected`: states the run for buffers at least a frame long. The source's buffers are 8 bytes shorter, so that case is not covered.
- Bytes are modelled as `char`s: a buffer is a `seq<char>` and a string literal is its characters. `Client.HELLO_REFUSED` spells its en dash as one character. The C literal is 35 UTF-8 bytes, so the whole line cannot arrive through the 27-byte `recv` of client.c:251. The model compares characters, as if the line fitted.
- `usleep`, `gettimeofday`/`stopChrono` and all `double` arithmetic are not modelled: RTT, mean time and throughput.
- `printf`, `fwrite`, `fflush` and `perror` output are not modelled.
- The interactive `scanf` fallback of `fillParam` (client.c:226-239) is not modelled. `Params.measure` is None exactly when the program would prompt.
- `atoi`, `inet_addr` and `htons` are not modelled. Each argument carries the number `atoi` gives, and the address is kept as text.
- The undefined-behaviour parts of the `sscanf` calls are not modelled: `&measure` for `%s`, `%ld` into an `int`, and the NULL payload. Conversions follow their intended meaning.
- When the probe field of `parseMeasure` does not convert, the source compares an uninitialised `int`. The model reads that case as a mismatch.
- Integers are unbounded. Overflow of C `int` is not modelled: the server's counter, `%ld` fields read into `int`, and `atoi` of out-of-range arguments.
- `Session.HelloRoundTrip`: holds for probe counts, sizes and delays below 100000, as do `Session.EncodeHelloIsLine`, `Session.HelloLength`, `Session.HandshakeAlwaysExits` and `Session.HandshakeAccepts`. `fillParam` accepts any probe count above 0 and any delay of 0 or more (client.c:202-211). A thput HELLO with a longer field is cut by the 27-byte `snprintf`. That case is stated by `Session.CutThputHelloMisreadsDelay` and listed under Findings.
- The socket setup of `open` is not modelled, and as written it cannot bind the port. The result of `socket` is assigned to the pointer parameter `sfd` (server.c:125). `bind` is given `&server_addr`, the address of that pointer, with `sizeof(server_addr)`, the size of a pointer (server.c:134).
- The commented-out resend logic and `analyzeData` (client.c:147-155, 176-185) are left out: they run only from dead code.
- The server's `argc != 1` check (server.c:52) is left out. It is command-line glue and contradicts the code's own use of `argv[1]`.
- `Server.HeadDecides`: covers chunks whose head is "m <digits>" followed by a non-NUL white-space character, the only shape the client sends. Other acceptable inputs go through `Server.ParseMeasure` directly.

## Findings

| source | as written | input that shows it | evidently intended | confidence | as-written member | corrected member |
|---|---|---|---|---|---|---|
| server.c:77-81 | After sending the 15-byte reply, the server compares the bytes sent with the bytes of the HELLO received and exits on a difference. | Any client HELLO, e.g. "h rtt 00020 00001 00000\n" (24 bytes). | Check the send against the length of the reply. | not executed | `Server.AcceptHelloAsWritten`, `Session.HandshakeAlwaysExits` | `Server.AcceptHello`, `Session.HandshakeAccepts` |
| client.c:93-95 | Both buffers are msg_size = payload + 8 bytes. `sendHello` writes up to 27 bytes into one and receives up to 27 into the other. | The first rtt run: payload 1 gives 9-byte buffers, while the HELLO takes 24 characters and a NUL. | Buffers that hold a HELLO of up to 27 bytes as well as a frame. | not executed | `Client.FirstRttRunOverflows` | `Client.SendBufferSize`, `Client.HelloBuffer` |
| client.c:245-248 | `snprintf` into the 27-byte HELLO buffer cuts a HELLO of 27 characters or more, which `fillParam` allows (client.c:202-211). | `-m thput -d 1000000` with the first payload 1000: the client sends "h thput 00020 01000 100000" without its newline, and the server stores delay 100000. | The whole HELLO reaches the server. | not executed | `Session.CutThputHelloMisreadsDelay` | `Client.EncodeWideHello`, `Session.WideHelloRoundTrip` |
| client.c:113 | The client numbers probes from 0 (client.c:113), while the server expects 1 first (server.c:85). | Once the handshake check of server.c:77-81 is corrected (the first row), every run: probe 0 is rejected and answered with the uninitialised receivedData1. As written, the server exits at that check before it reaches the loop. | Both sides start at the same number. | not executed | `Session.OnlyFirstProbeRejected` | `Server.AlignedState`, `Session.AlignedProbesAllAccepted` |

=== FILE: client.dfy ===
/**
 The measuring client (client.c): command-line validation, the HELLO line,
 the fixed-length MEASURE frames written over the run's send buffer, the
 table of payload sizes each run announces, the classification of the
 server's status lines and the probe loop of one run.
 */
module Client {
  import opened Text

  const PHASE_HELLO: char := 'h'
  const PHASE_MEASURE: char := 'm'
  const MEASURE_RTT: string := "rtt"
  const MEASURE_THPUT: string := "thput"
  const HELLO_ACCEPTED: string := "200 OK - Ready"
  /** Spelled with an en dash (U+2013) between "ERROR" and "Invalid" */
  const HELLO_REFUSED: string := "404 ERROR \U{2013} Invalid Hello message"
  const MEASURE_INVALID: string := "404 ERROR - Invalid Measurement message"
  const HELLO_MESSAGE_SIZE: nat := 27
  /** Frame bytes on top of the payload */
  const MEASURE_MESSAGE_SIZE: nat := 8
  /** Corrected HELLO buffer: as large as the server's HELLO receive buffer */
  const WIDE_HELLO_SIZE: nat := 128
  const PAYLOAD_MARKER: string := "\nPAYLOAD START HERE:\n"
  /** `sizeof(bye_message)` bytes go out, the NUL included */
  const BYE_MESSAGE: seq<char> := "b\n\0"
  const RTT_SIZES: seq<nat> := [1, 100, 200, 400, 800, 1000]
  const THPUT_SIZES: seq<nat> := [1000, 2000, 4000, 16000, 32000]
  const DEFAULT_PROBES: nat := 20
  /** Length of the shortest MEASURE text, that of a five-digit probe number */
  const MEASURE_TEXT_MIN: nat := 30

  // ---------------------------------------------------------------- fillParam

  /** One command-line argument, with the value `atoi` reads from it */
  datatype Arg = Arg(text: string, number: int)

  /** What `fillParam` stores. `measure` is None when no -m flag was given,
      which is when the program asks for the measure on standard input. */
  datatype Params = Params(
    address: string,
    port: int,
    probes: nat,
    sizeIndex: nat,
    delay: nat,
    measure: Option<string>)

  /** -1, or the number of arguments used and the filled parameters */
  datatype FillResult = Rejected | Filled(used: int, params: Params)

  datatype Flag = ProbesFlag | DelayFlag | MeasureFlag | UnknownFlag

  function FlagOf(text: string): Flag {
    if text == "-p" || text == "--probes" then ProbesFlag
    else if text == "-d" || text == "--delay" then DelayFlag
    else if text == "-m" || text == "--measure" then MeasureFlag
    else UnknownFlag
  }

  predicate IsMeasureName(text: string) { text == MEASURE_RTT || text == MEASURE_THPUT }

  predicate ArgcAccepted(argc: int) { 3 <= argc <= 10 && argc % 2 == 1 }

  /** Flag/value pairs after the program name, the address and the port */
  function PairCount(argv: seq<Arg>): nat { if |argv| < 3 then 0 else (|argv| - 3) / 2 }

  function FlagAt(argv: seq<Arg>, k: nat): Flag
    requires k < PairCount(argv)
  {
    FlagOf(argv[3 + 2 * k].text)
  }

  function ValueAt(argv: seq<Arg>, k: nat): Arg
    requires k < PairCount(argv)
  {
    argv[4 + 2 * k]
  }

  /** Pair k names a known flag and a value that flag accepts */
  predicate PairValid(argv: seq<Arg>, k: nat)
    requires k < PairCount(argv)
  {
    match FlagAt(argv, k)
    case ProbesFlag => ValueAt(argv, k).number > 0
    case DelayFlag => ValueAt(argv, k).number >= 0
    case MeasureFlag => IsMeasureName(ValueAt(argv, k).text)
    case UnknownFlag => false
  }

  /** Pair k is the last of the first m pairs that carries flag f */
  predicate LastAmong(argv: seq<Arg>, f: Flag, k: nat, m: nat)
    requires m <= PairCount(argv)
  {
    k < m && FlagAt(argv, k) == f && forall j :: k < j < m ==> FlagAt(argv, j) != f
  }

  predicate AbsentAmong(argv: seq<Arg>, f: Flag, m: nat)
    requires m <= PairCount(argv)
  {
    forall j :: 0 <= j < m ==> FlagAt(argv, j) != f
  }

  /** After the first m pairs, a numeric setting holds the value of the
      last pair naming its flag, or its default when none does */
  predicate NumberSetting(argv: seq<Arg>, f: Flag, v: int, default: int, m: nat)
    requires m <= PairCount(argv)
  {
    && (forall k: nat :: k < m && LastAmong(argv, f, k, m) ==> v == ValueAt(argv, k).number)
    && (AbsentAmong(argv, f, m) ==> v == default)
  }

  predicate MeasureSetting(argv: seq<Arg>, v: Option<string>, m: nat)
    requires m <= PairCount(argv)
  {
    && (forall k: nat :: k < m && LastAmong(argv, MeasureFlag, k, m) ==> v == Some(ValueAt(argv, k).text))
    && (AbsentAmong(argv, MeasureFlag, m) ==> v == None)
  }

  /** The three settings after the first m pairs, each valid and each the
      value of the last pair naming its flag, or its default */
  predicate Settings(argv: seq<Arg>, probes: int, delay: int, measure: Option<string>, m: nat)
    requires m <= PairCount(argv)
  {
    && probes > 0 && delay >= 0 && (measure.Some? ==> IsMeasureName(measure.value))
    && NumberSetting(argv, ProbesFlag, probes, DEFAULT_PROBES, m)
    && NumberSetting(argv, DelayFlag, delay, 0, m)
    && MeasureSetting(argv, measure, m)
  }

  /** Taking in pair m: a pair naming the flag replaces the setting, any
      other pair leaves it. */
  lemma NumberSettingStep(argv: seq<Arg>, f: Flag, v: int, default: int, m: nat)
    requires m < PairCount(argv)
    requires NumberSetting(argv, f, v, default, m)
    ensures FlagAt(argv, m) == f ==> NumberSetting(argv, f, ValueAt(argv, m).number, default, m + 1)
    ensures FlagAt(argv, m) != f ==> NumberSetting(argv, f, v, default, m + 1)
  {
    if FlagAt(argv, m) != f {
      forall k: nat | k < m + 1 && LastAmong(argv, f, k, m + 1)
        ensures LastAmong(argv, f, k, m)
      {
      }
    }
  }

  lemma MeasureSettingStep(argv: seq<Arg>, v: Option<string>, m: nat)
    requires m < PairCount(argv)
    requires MeasureSetting(argv, v, m)
    ensures FlagAt(argv, m) == MeasureFlag ==> MeasureSetting(argv, Some(ValueAt(argv, m).text), m + 1)
    ensures FlagAt(argv, m) != MeasureFlag ==> MeasureSetting(argv, v, m + 1)
  {
    if FlagAt(argv, m) != MeasureFlag {
      forall k: nat | k < m + 1 && LastAmong(argv, MeasureFlag, k, m + 1)
        ensures LastAmong(argv, MeasureFlag, k, m)
      {
      }
    }
  }

  /** Lines 202-222: one flag and its value. A value the flag does not
      accept, or an unknown flag, ends the parse; otherwise the setting the
      flag names is replaced. */
  method TakePair(argv: seq<Arg>, k: nat, probes: int, delay: int, measure: Option<string>)
    returns (ok: bool, probes': int, delay': int, measure': Option<string>)
    requires k < PairCount(argv)
    requires Settings(argv, probes, delay, measure, k)
    ensures ok <==> PairValid(argv, k)
    ensures ok ==> Settings(argv, probes', delay', measure', k + 1)
  {
    var flag := argv[3 + 2 * k].text;
    var value := ValueAt(argv, k);
    NumberSettingStep(argv, ProbesFlag, probes, DEFAULT_PROBES, k);
    NumberSettingStep(argv, DelayFlag, delay, 0, k);
    MeasureSettingStep(argv, measure, k);
    probes', delay', measure' := probes, delay, measure;
    if flag == "-p" || flag == "--probes" {
      probes' := value.number;
      ok := probes' > 0;
    } else if flag == "-d" || flag == "--delay" {
      delay' := value.number;
      ok := delay' >= 0;
    } else if flag == "-m" || flag == "--measure" {
      ok := value.text == MEASURE_RTT || value.text == MEASURE_THPUT;
      if ok {
        measure' := Some(value.text);
      }
    } else {
      ok := false;
    }
  }

  /** Validates the command line and fills the run parameters. */
  method FillParam(argv: seq<Arg>) returns (r: FillResult)
    ensures r.Rejected? <==>
      !ArgcAccepted(|argv|) || exists k :: 0 <= k < PairCount(argv) && !PairValid(argv, k)
    ensures r.Filled? ==>
      && r.used == |argv| - 2
      && r.params.address == argv[1].text
      && r.params.port == argv[2].number
      && r.params.sizeIndex == 0
      && Settings(argv, r.params.probes, r.params.delay, r.params.measure, PairCount(argv))
  {
    var argc := |argv|;
    if argc < 3 || argc > 10 || argc % 2 != 1 {
      return Rejected;
    }
    var probes: int := DEFAULT_PROBES;
    var delay: int := 0;
    var measure: Option<string> := None;
    var k: nat := 0;
    while 3 + 2 * k < argc
      invariant k <= PairCount(argv) && 3 + 2 * k <= argc
      invariant forall j :: 0 <= j < k ==> PairValid(argv, j)
      invariant Settings(argv, probes, delay, measure, k)
      decreases argc - 2 * k
    {
      var ok;
      ok, probes, delay, measure := TakePair(argv, k, probes, delay, measure);
      if !ok {
        assert !PairValid(argv, k);
        return Rejected;
      }
      k := k + 1;
    }
    assert k == PairCount(argv);
    return Filled(argc - 2, Params(argv[1].text, argv[2].number, probes, 0, delay, measure));
  }

  // ---------------------------------------------------------------- HELLO

  /** The line "%c %s %05d %05d %05d\n" formats, before any truncation */
  function HelloText(kind: string, probes: nat, size: nat, delay: nat): string {
    [PHASE_HELLO] + " " + kind + " " + Pad5(probes) + " " + Pad5(size) + " " + Pad5(delay) + "\n"
  }

  /** What `strlen` finds after `snprintf` of a NUL-free text into a
      buffer of `limit` bytes: the text cut to `limit - 1` characters */
  function Kept(text: string, limit: nat): (r: string)
    requires 0 < limit
    ensures r <= text
    ensures |r| == Min(|text|, limit - 1)
  {
    text[..Min(|text|, limit - 1)]
  }

  /** The bytes `sendHello` sends: `snprintf` into HELLO_MESSAGE_SIZE bytes
      keeps at most 26 characters, and `strlen` of what it kept is sent. */
  function EncodeHello(kind: string, probes: nat, size: nat, delay: nat): (r: string)
    ensures r <= HelloText(kind, probes, size, delay)
    ensures |r| == Min(|HelloText(kind, probes, size, delay)|, HELLO_MESSAGE_SIZE - 1)
    ensures |HelloText(kind, probes, size, delay)| < HELLO_MESSAGE_SIZE ==> r == HelloText(kind, probes, size, delay)
  {
    Kept(HelloText(kind, probes, size, delay), HELLO_MESSAGE_SIZE)
  }

  /** Corrected: the HELLO formatted into a WIDE_HELLO_SIZE buffer */
  function EncodeWideHello(kind: string, probes: nat, size: nat, delay: nat): (r: string)
    ensures r <= HelloText(kind, probes, size, delay)
    ensures |r| == Min(|HelloText(kind, probes, size, delay)|, WIDE_HELLO_SIZE - 1)
  {
    Kept(HelloText(kind, probes, size, delay), WIDE_HELLO_SIZE)
  }

  /** For either measure name and five-digit fields, the HELLO is never
      truncated: it is "h <type> <5 digits> <5 digits> <5 digits>\n". */
  lemma HelloNotTruncated(kind: string, probes: nat, size: nat, delay: nat)
    requires IsMeasureName(kind)
    requires probes < 100000 && size < 100000 && delay < 100000
    ensures |HelloText(kind, probes, size, delay)| == 21 + |kind| <= HELLO_MESSAGE_SIZE - 1
    ensures EncodeHello(kind, probes, size, delay) == HelloText(kind, probes, size, delay)
    ensures EncodeHello(kind, probes, size, delay)[20 + |kind|] == '\n'
  {
  }

  // ---------------------------------------------------------------- MEASURE

  /** The line "%c %05d %s\n" formats for a probe, before any truncation */
  function MeasureText(probe: nat): (t: string)
    ensures |t| >= MEASURE_TEXT_MIN
  {
    [PHASE_MEASURE] + " " + Pad5(probe) + " " + PAYLOAD_MARKER + "\n"
  }

  /** Later probe numbers never give a shorter MEASURE text. */
  lemma MeasureTextGrows(a: nat, b: nat)
    requires a <= b
    ensures |MeasureText(a)| <= |MeasureText(b)|
  {
    DigitsMonotone(a, b);
  }

  /** `snprintf(buf, limit, ...)` of a formatted text: its first limit-1
      characters and a NUL; the rest of the buffer keeps its bytes */
  function Snprintf(buf: seq<char>, limit: nat, text: string): (b: seq<char>)
    requires 0 < limit <= |buf|
    ensures |b| == |buf|
    ensures var n := Min(|text|, limit - 1);
      && b[..n] == text[..n]
      && b[n] == NUL
      && b[n + 1..] == buf[n + 1..]
    ensures b[limit..] == buf[limit..]
    ensures NUL !in text ==> CString(b) == text[..Min(|text|, limit - 1)]
    ensures |text| < limit ==> b[..|text|] == text && b[|text|] == NUL
  {
    var n := Min(|text|, limit - 1);
    var b := text[..n] + [NUL] + buf[n + 1..];
    if NUL in text then b
    else
      assert b == text[..n] + ([NUL] + buf[n + 1..]);
      CStringOfPrefix(text[..n], [NUL] + buf[n + 1..]);
      assert text[..n] + [] == text[..n];
      b
  }

  /** `initializePayload`: a buffer of '-' */
  function InitializePayload(len: nat): (b: seq<char>)
    ensures |b| == len
    ensures forall i :: 0 <= i < len ==> b[i] == '-'
  {
    seq(len, _ => '-')
  }

  /** Lines 117-119: the MEASURE text written over the send buffer, its
      last frame byte then forced to a newline */
  function WriteMeasure(buf: seq<char>, msgSize: nat, probe: nat): (b: seq<char>)
    requires 0 < msgSize <= |buf|
    ensures |b| == |buf|
    ensures b[msgSize - 1] == '\n'
    ensures b[msgSize..] == buf[msgSize..]
    ensures var n := Min(|MeasureText(probe)|, msgSize - 1);
      && b[..n] == MeasureText(probe)[..n]
      && (n < msgSize - 1 ==> b[n] == NUL && b[n + 1..msgSize - 1] == buf[n + 1..msgSize - 1])
  {
    Snprintf(buf, msgSize, MeasureText(probe))[msgSize - 1 := '\n']
  }

  /** The msg_size bytes sent for one probe of a run with the given payload */
  function MeasureFrame(probe: nat, payload: nat): (f: seq<char>)
    ensures |f| == payload + MEASURE_MESSAGE_SIZE
  {
    WriteMeasure(InitializePayload(payload + MEASURE_MESSAGE_SIZE), payload + MEASURE_MESSAGE_SIZE, probe)
  }

  /** The MEASURE text starts "m <digits> ". */
  lemma MeasureTextHead(probe: nat)
    ensures var k := |Pad5(probe)| + 2;
      && k + 1 < |MeasureText(probe)|
      && MeasureText(probe)[..k] == [PHASE_MEASURE] + " " + Pad5(probe)
      && MeasureText(probe)[k] == ' '
  {
    var head := [PHASE_MEASURE] + " " + Pad5(probe);
    var rest := " " + PAYLOAD_MARKER + "\n";
    assert MeasureText(probe) == head + rest;
  }

  /** A frame holds the MEASURE text cut to msg_size - 1 characters and
      ends with its newline. */
  lemma FrameKeepsText(probe: nat, payload: nat)
    ensures var f := MeasureFrame(probe, payload);
      var n := Min(|MeasureText(probe)|, |f| - 1);
      && |f| == payload + MEASURE_MESSAGE_SIZE
      && f[|f| - 1] == '\n'
      && f[..n] == MeasureText(probe)[..n]
  {
  }

  /** Probe `probe`'s number fits a frame of the given payload: the frame
      keeps "m <digits>" whole, and the byte after the digits is the text's
      blank or the frame's closing newline. */
  predicate NumberFits(probe: nat, payload: nat) {
    |Pad5(probe)| <= payload + 5
  }

  /** A number fits exactly when it is below 10^(payload + 5): every
      five-digit number fits any frame, and the 9-byte frames of the first
      rtt run take numbers below 1000000. */
  lemma NumberFitsBelow(probe: nat, payload: nat)
    ensures NumberFits(probe, payload) <==> probe < Pow10(payload + 5)
  {
    Pad5Width(probe, payload + 5);
  }

  /** A frame is exactly payload + 8 bytes: the MEASURE text cut to
      msg_size - 1 characters, its NUL when the text is shorter, '-' filler,
      and a newline as last byte. With a payload and a five-digit number it
      begins "m <5 digits> ". */
  lemma MeasureFrameShape(probe: nat, payload: nat)
    ensures var f := MeasureFrame(probe, payload);
      var n := Min(|MeasureText(probe)|, |f| - 1);
      && |f| == payload + MEASURE_MESSAGE_SIZE
      && f[|f| - 1] == '\n'
      && f[..n] == MeasureText(probe)[..n]
      && (n < |f| - 1 ==> f[n] == NUL)
      && (forall i :: n < i < |f| - 1 ==> f[i] == '-')
    ensures probe < 100000 && 0 < payload ==>
      MeasureFrame(probe, payload)[..8] == [PHASE_MEASURE] + " " + Pad5(probe) + " "
  {
    var f := MeasureFrame(probe, payload);
    assert probe < 100000 && 0 < payload ==> f[..8] == MeasureText(probe)[..8];
  }

  /** Past `from`, up to the frame's last byte, the buffer holds '-' filler. */
  predicate FillerFrom(buf: seq<char>, msgSize: nat, from: nat) {
    msgSize <= |buf| && forall i :: from < i < msgSize - 1 ==> buf[i] == '-'
  }

  /** Whatever an earlier HELLO or shorter frame left in the buffer, a frame
      written over it is the frame a fresh buffer gives, and the filler past
      its text stays. */
  lemma WriteMeasureOverResidue(buf: seq<char>, msgSize: nat, probe: nat)
    requires MEASURE_MESSAGE_SIZE <= msgSize
    requires FillerFrom(buf, msgSize, |MeasureText(probe)|)
    ensures WriteMeasure(buf, msgSize, probe)[..msgSize] == MeasureFrame(probe, msgSize - MEASURE_MESSAGE_SIZE)
    ensures FillerFrom(WriteMeasure(buf, msgSize, probe), msgSize, |MeasureText(probe)|)
  {
    var text := MeasureText(probe);
    var w := WriteMeasure(buf, msgSize, probe);
    var clean := InitializePayload(msgSize);
    var f := WriteMeasure(clean, msgSize, probe);
    assert f == MeasureFrame(probe, msgSize - MEASURE_MESSAGE_SIZE);
    var n := Min(|text|, msgSize - 1);
    forall i | 0 <= i < msgSize
      ensures w[i] == f[i]
    {
      if i < n {
        assert w[..n][i] == w[i] && f[..n][i] == f[i];
      } else if n < i < msgSize - 1 {
        assert w[n + 1..msgSize - 1][i - n - 1] == w[i] && buf[n + 1..msgSize - 1][i - n - 1] == buf[i];
        assert f[n + 1..msgSize - 1][i - n - 1] == f[i] && clean[n + 1..msgSize - 1][i - n - 1] == clean[i];
      }
    }
    assert w[..msgSize] == f;
    forall i | |text| < i < msgSize - 1
      ensures w[i] == '-'
    {
      assert w[n + 1..msgSize - 1][i - n - 1] == w[i] && buf[n + 1..msgSize - 1][i - n - 1] == buf[i];
    }
  }

  /** The HELLO `sendHello` formats into the send buffer leaves the filler alone. */
  lemma HelloKeepsFiller(buf: seq<char>, msgSize: nat, hello: string)
    requires HELLO_MESSAGE_SIZE <= |buf|
    requires FillerFrom(buf, msgSize, MEASURE_TEXT_MIN)
    ensures FillerFrom(Snprintf(buf, HELLO_MESSAGE_SIZE, hello), msgSize, MEASURE_TEXT_MIN)
  {
  }

  // ---------------------------------------------------------------- buffers

  /** Bytes `snprintf(sendData, HELLO_MESSAGE_SIZE, ...)` stores for a HELLO:
      the characters it keeps and the NUL */
  function HelloStoreLength(hello: string): nat {
    Min(|hello|, HELLO_MESSAGE_SIZE - 1) + 1
  }

  /** Lines 94-95 size both buffers to msg_size; the HELLO is formatted into
      one of them and received into the other. */
  predicate HelloFitsAsWritten(payload: nat, hello: string) {
    HelloStoreLength(hello) <= payload + MEASURE_MESSAGE_SIZE
  }

  /** The first rtt run has a 9-byte buffer but formats its HELLO of 24
      characters and a NUL into it. */
  lemma FirstRttRunOverflows(probes: nat, delay: nat)
    requires probes < 100000 && delay < 100000
    ensures !HelloFitsAsWritten(RTT_SIZES[0], EncodeHello(MEASURE_RTT, probes, RTT_SIZES[0], delay))
    ensures RTT_SIZES[0] + MEASURE_MESSAGE_SIZE < HELLO_MESSAGE_SIZE
  {
    HelloNotTruncated(MEASURE_RTT, probes, RTT_SIZES[0], delay);
  }

  /** Buffer length that holds a frame and also any HELLO write or HELLO
      reply of up to HELLO_MESSAGE_SIZE bytes */
  function SendBufferSize(payload: nat): (n: nat)
    ensures payload + MEASURE_MESSAGE_SIZE <= n
    ensures HELLO_MESSAGE_SIZE <= n
    ensures forall hello :: HelloStoreLength(hello) <= n
    ensures n == payload + MEASURE_MESSAGE_SIZE || n == HELLO_MESSAGE_SIZE
  {
    Max(payload + MEASURE_MESSAGE_SIZE, HELLO_MESSAGE_SIZE)
  }

  // ---------------------------------------------------------------- runs

  /** Payload sizes of the runs: the rtt table for "rtt", else the thput table */
  function SizeTable(kind: string): seq<nat> {
    if kind != MEASURE_RTT then THPUT_SIZES else RTT_SIZES
  }

  /** One run: its payload, its frame length and the size its HELLO announces */
  datatype RunSpec = RunSpec(payload: nat, msgSize: nat, announced: nat)

  /** The runs from index i on; `sizeIndex` is the parameter that advances
      once per run and picks the size the HELLO announces */
  function PlanFrom(table: seq<nat>, i: nat, p: Params): (plan: seq<RunSpec>)
    requires i <= |table| && p.sizeIndex == i
    ensures |plan| == |table| - i
    ensures forall j :: 0 <= j < |plan| ==>
      && plan[j].payload == table[i + j]
      && plan[j].msgSize == table[i + j] + MEASURE_MESSAGE_SIZE
      && plan[j].announced == table[i + j]
    decreases |table| - i
  {
    if i == |table| then []
    else
      var run := RunSpec(table[i], table[i] + MEASURE_MESSAGE_SIZE, table[p.sizeIndex]);
      [run] + PlanFrom(table, i + 1, p.(sizeIndex := p.sizeIndex + 1))
  }

  /** The runs `main` performs, one connection each: one per entry of the
      size table, in order, each announcing in its HELLO the payload it
      then sends. */
  function RunPlan(p: Params, kind: string): (plan: seq<RunSpec>)
    requires p.sizeIndex == 0
    ensures kind == MEASURE_RTT ==> |plan| == |RTT_SIZES|
    ensures kind != MEASURE_RTT ==> |plan| == |THPUT_SIZES|
    ensures forall j :: 0 <= j < |plan| ==>
      && plan[j].payload == SizeTable(kind)[j]
      && plan[j].msgSize == plan[j].payload + MEASURE_MESSAGE_SIZE
      && plan[j].announced == plan[j].payload
  {
    PlanFrom(SizeTable(kind), 0, p)
  }

  // ---------------------------------------------------------------- status lines

  datatype HelloVerdict = Ready | Refused | Unexpected

  /** The branches of `sendHello` on the received reply */
  function ClassifyHelloReply(received: seq<char>): (v: HelloVerdict)
    ensures v == Ready <==> CString(received) == HELLO_ACCEPTED
    ensures v == Refused <==> CString(received) == HELLO_REFUSED
  {
    var s := CString(received);
    if s == HELLO_ACCEPTED then Ready
    else if s == HELLO_REFUSED then Refused
    else Unexpected
  }

  /** `sendHello`'s return value: 1 on the ready line, -1 otherwise */
  function SendHelloResult(received: seq<char>): (r: int)
    ensures r == 1 <==> CString(received) == HELLO_ACCEPTED
    ensures r == 1 || r == -1
  {
    if ClassifyHelloReply(received) == Ready then 1 else -1
  }

  /** A refusal spelled with a hyphen is not HELLO_REFUSED and falls into
      the unexpected-reply branch. */
  lemma HyphenRefusalIsUnexpected()
    ensures ClassifyHelloReply("404 ERROR - Invalid Hello message") == Unexpected
  {
    assert "404 ERROR - Invalid Hello message"[10] != HELLO_REFUSED[10];
  }

  /** Lines 291-293: the reply, read as a C string, is the
      invalid-measurement line */
  predicate IsErrorMeasure(received: seq<char>) {
    CString(received) == MEASURE_INVALID
  }

  /** `strcmp` against the invalid-measurement line in terms of the bytes:
      the reply begins with the line and ends or holds a NUL right after. */
  lemma ErrorMeasureBytes(received: seq<char>)
    ensures IsErrorMeasure(received) <==>
      MEASURE_INVALID <= received
      && (|received| == |MEASURE_INVALID| || received[|MEASURE_INVALID|] == NUL)
  {
    CStringIs(received, MEASURE_INVALID);
  }

  /** A frame never reads as the invalid-measurement line. */
  lemma FrameIsNeverInvalid(probe: nat, payload: nat)
    ensures !IsErrorMeasure(MeasureFrame(probe, payload))
  {
    var f := MeasureFrame(probe, payload);
    MeasureFrameShape(probe, payload);
    assert f[..1] == MeasureText(probe)[..1];
    assert CString(f)[0] == PHASE_MEASURE;
  }

  /** An echoed frame never reads as the invalid-measurement line. */
  lemma EchoIsNeverInvalid(probe: nat, payload: nat, tail: seq<char>)
    ensures !IsErrorMeasure(MeasureFrame(probe, payload) + tail)
  {
    var f := MeasureFrame(probe, payload);
    MeasureFrameShape(probe, payload);
    assert f[..1] == MeasureText(probe)[..1];
    assert (f + tail)[0] == PHASE_MEASURE;
    assert CString(f + tail)[0] == PHASE_MEASURE;
  }

  // ---------------------------------------------------------------- probe loop

  /** What one `recv` of an echo returned */
  datatype Reply = Received(data: seq<char>) | PeerClosed | RecvFailed

  datatype AbortReason = ReceiveError | ConnectionClosed | InvalidMeasurement

  datatype RunOutcome =
    | Completed(transmitted: nat, lossPercent: int)
    | Aborted(at: nat, reason: AbortReason)

  /** The sequence numbers a run sent, in order, and how it ended */
  datatype RunResult = RunResult(sent: seq<nat>, outcome: RunOutcome)

  /** Why the run ends at a reply, if it does */
  function Verdict(r: Reply): Option<AbortReason> {
    match r
    case RecvFailed => Some(ReceiveError)
    case PeerClosed => Some(ConnectionClosed)
    case Received(data) => if IsErrorMeasure(data) then Some(InvalidMeasurement) else None
  }

  /** The probe loop from sequence number `probe` on */
  function ProbeLoop(probe: nat, probes: nat, replies: seq<Reply>): (r: RunResult)
    requires 0 < probes <= |replies| && probe <= probes
    ensures |r.sent| <= probes - probe
    ensures forall k :: 0 <= k < |r.sent| ==> r.sent[k] == probe + k
    ensures r.outcome.Completed? <==> forall k :: probe <= k < probes ==> Verdict(replies[k]).None?
    ensures r.outcome.Completed? ==> |r.sent| == probes - probe && r.outcome == Completed(probes, 0)
    ensures r.outcome.Aborted? ==>
      && probe <= r.outcome.at < probes
      && |r.sent| == r.outcome.at - probe + 1
      && Verdict(replies[r.outcome.at]) == Some(r.outcome.reason)
      && forall k :: probe <= k < r.outcome.at ==> Verdict(replies[k]).None?
    decreases probes - probe
  {
    if probe == probes then
      var loss := 0;
      RunResult([], Completed(probes, loss * 100 / probes))
    else
      match Verdict(replies[probe])
      case Some(why) => RunResult([probe], Aborted(probe, why))
      case None =>
        var rest := ProbeLoop(probe + 1, probes, replies);
        RunResult([probe] + rest.sent, rest.outcome)
  }

  /** One run's probes: sequence numbers 0, 1, ... each sent once in
      increasing order, until the first failed, closed or invalid reply; a
      run that completes has sent all of them and reports a loss of 0 %. */
  function ProbeRun(probes: nat, replies: seq<Reply>): (r: RunResult)
    requires 0 < probes <= |replies|
    ensures forall k :: 0 <= k < |r.sent| ==> r.sent[k] == k
    ensures r.outcome.Completed? <==> forall k :: 0 <= k < probes ==> Verdict(replies[k]).None?
    ensures r.outcome.Completed? ==> |r.sent| == probes && r.outcome == Completed(probes, 0)
    ensures r.outcome.Aborted? ==>
      && r.outcome.at < probes
      && |r.sent| == r.outcome.at + 1
      && Verdict(replies[r.outcome.at]) == Some(r.outcome.reason)
      && forall k :: 0 <= k < r.outcome.at ==> Verdict(replies[k]).None?
  {
    ProbeLoop(0, probes, replies)
  }

  /** When every reply after the first passes, the first decides the run:
      it completes when that reply passes and otherwise aborts at probe 0. */
  lemma ProbeRunDecidedByFirst(probes: nat, replies: seq<Reply>)
    requires 0 < probes <= |replies|
    requires forall k :: 1 <= k < probes ==> Verdict(replies[k]).None?
    ensures var r := ProbeRun(probes, replies);
      && (r.outcome.Completed? <==> Verdict(replies[0]).None?)
      && (r.outcome.Aborted? ==> r.outcome == Aborted(0, Verdict(replies[0]).value))
  {
  }

  /** The frames of probes 0 to n-1, in order */
  function Frames(n: nat, payload: nat): (fs: seq<seq<char>>)
    ensures |fs| == n
  {
    Tabulate(n, k => MeasureFrame(k, payload))
  }

  /** The k-th of the frames is probe k's frame. */
  lemma FrameOfProbe(n: nat, payload: nat, k: nat)
    requires k < n
    ensures Frames(n, payload)[k] == MeasureFrame(k, payload)
  {
    TabulateAt(n, k => MeasureFrame(k, payload), k);
  }

  /** Every frame of a run has the run's frame length. */
  lemma FrameLengths(n: nat, payload: nat)
    ensures forall k :: 0 <= k < n ==> |Frames(n, payload)[k]| == payload + MEASURE_MESSAGE_SIZE
  {
    forall k | 0 <= k < n
      ensures |Frames(n, payload)[k]| == payload + MEASURE_MESSAGE_SIZE
    {
      FrameOfProbe(n, payload, k);
    }
  }

  lemma FramesSnoc(n: nat, payload: nat)
    ensures Frames(n + 1, payload) == Frames(n, payload) + [MeasureFrame(n, payload)]
  {
    TabulateSnoc(n, k => MeasureFrame(k, payload));
  }

  /** Lines 117-120: one probe's frame written into the send buffer; the
      msg_size bytes that go out extend the frames sent so far. */
  method SendMeasure(buf: seq<char>, msgSize: nat, probe: nat, sent: seq<seq<char>>)
    returns (next: seq<char>, sent': seq<seq<char>>)
    requires MEASURE_MESSAGE_SIZE <= msgSize
    requires FillerFrom(buf, msgSize, |MeasureText(probe)|)
    requires sent == Frames(probe, msgSize - MEASURE_MESSAGE_SIZE)
    ensures |next| == |buf|
    ensures sent' == Frames(probe + 1, msgSize - MEASURE_MESSAGE_SIZE)
    ensures FillerFrom(next, msgSize, |MeasureText(probe + 1)|)
  {
    WriteMeasureOverResidue(buf, msgSize, probe);
    next := WriteMeasure(buf, msgSize, probe);
    FramesSnoc(probe, msgSize - MEASURE_MESSAGE_SIZE);
    sent' := sent + [next[..msgSize]];
    MeasureTextGrows(probe, probe + 1);
  }

  /** Lines 93-109: the send buffer filled with '-' and then the HELLO
      formatted into it by `sendHello` */
  method HelloBuffer(payload: nat, hello: string) returns (buf: seq<char>)
    ensures |buf| == SendBufferSize(payload)
    ensures buf[..Min(|hello|, HELLO_MESSAGE_SIZE - 1)] == hello[..Min(|hello|, HELLO_MESSAGE_SIZE - 1)]
    ensures FillerFrom(buf, payload + MEASURE_MESSAGE_SIZE, |MeasureText(0)|)
  {
    buf := InitializePayload(SendBufferSize(payload));
    HelloKeepsFiller(buf, payload + MEASURE_MESSAGE_SIZE, hello);
    buf := Snprintf(buf, HELLO_MESSAGE_SIZE, hello);
  }

  /** One step of the probe loop, unfolded */
  lemma ProbeLoopStep(probe: nat, probes: nat, replies: seq<Reply>)
    requires 0 < probes <= |replies| && probe < probes
    ensures Verdict(replies[probe]).Some? ==>
      ProbeLoop(probe, probes, replies).outcome == Aborted(probe, Verdict(replies[probe]).value)
    ensures Verdict(replies[probe]).None? ==>
      && ProbeLoop(probe, probes, replies).outcome == ProbeLoop(probe + 1, probes, replies).outcome
      && |ProbeLoop(probe, probes, replies).sent| == 1 + |ProbeLoop(probe + 1, probes, replies).sent|
  {
  }

  /** The run as `main` executes it on its buffers: the send buffer is
      filled with '-', receives the HELLO, and then each frame is written
      over the previous one. The frames that go out are those of the
      numbers ProbeRun sends, and the run ends as ProbeRun says. */
  method RunProbes(payload: nat, probes: nat, hello: string, replies: seq<Reply>)
    returns (frames: seq<seq<char>>, outcome: RunOutcome)
    requires 0 < probes <= |replies|
    ensures outcome == ProbeRun(probes, replies).outcome
    ensures |frames| == |ProbeRun(probes, replies).sent|
    ensures frames == Frames(|frames|, payload)
  {
    var msgSize := payload + MEASURE_MESSAGE_SIZE;
    var sendData := HelloBuffer(payload, hello);
    frames := [];
    var probe: nat := 0;
    var loss := 0;
    while probe < probes
      invariant probe <= probes && |frames| == probe
      invariant |sendData| == SendBufferSize(payload)
      invariant FillerFrom(sendData, msgSize, |MeasureText(probe)|)
      invariant frames == Frames(probe, payload)
      invariant ProbeLoop(probe, probes, replies).outcome == ProbeRun(probes, replies).outcome
      invariant |ProbeRun(probes, replies).sent| == probe + |ProbeLoop(probe, probes, replies).sent|
      decreases probes - probe
    {
      sendData, frames := SendMeasure(sendData, msgSize, probe, frames);
      ProbeLoopStep(probe, probes, replies);
      var verdict := Verdict(replies[probe]);
      if verdict.Some? {
        return frames, Aborted(probe, verdict.value);
      }
      probe := probe + 1;
    }
    return frames, Completed(probe, loss * 100 / probe);
  }
}

=== FILE: scanf.dfy ===
/**
 The part of `sscanf` that the server's two format strings use, with the
 meaning the C standard gives each directive: white space in the format
 skips white space in the input, `%c` takes one character as it is, `%s`
 skips white space and takes a run of non-white-space characters, `%d` and
 `%ld` skip white space and take an optionally signed decimal. Scanning
 stops at the first directive that fails. The input is the C-string view of
 a buffer, so reaching its end is where an input failure happens.
 */
module Scanf {
  import opened Text

  datatype Directive =
    | Blank   // white space in the format
    | Chr     // %c
    | Word    // %s
    | Dec     // %d, %ld

  /** A value stored through one of the pointer arguments */
  datatype Item = CharItem(c: char) | WordItem(w: string) | IntItem(n: int)

  /** Why scanning stopped: the format was used up, the input ran out, or
      the input did not match */
  datatype Stop = Finished | InputFailure | MatchingFailure

  datatype Scan = Scan(items: seq<Item>, stop: Stop)

  function SkipSpace(s: string): (r: string)
    ensures |r| <= |s| && r == s[|s| - |r|..]
    ensures forall i :: 0 <= i < |s| - |r| ==> IsSpace(s[i])
    ensures |r| > 0 ==> !IsSpace(r[0])
  {
    if |s| > 0 && IsSpace(s[0]) then SkipSpace(s[1..]) else s
  }

  /** The longest prefix of decimal digits */
  function DigitRun(s: string): (d: string)
    ensures d <= s
    ensures AllDigits(d)
    ensures |d| < |s| ==> !IsDigit(s[|d|])
  {
    if |s| > 0 && IsDigit(s[0]) then [s[0]] + DigitRun(s[1..]) else []
  }

  /** The longest prefix without white space */
  function WordRun(s: string): (w: string)
    ensures w <= s
    ensures forall i :: 0 <= i < |w| ==> !IsSpace(w[i])
    ensures |w| < |s| ==> IsSpace(s[|w|])
  {
    if |s| > 0 && !IsSpace(s[0]) then [s[0]] + WordRun(s[1..]) else []
  }

  /** An optionally signed decimal at the head of s: its value and the
      number of characters it takes, or None when no digit follows the sign */
  function ScanInt(s: string): (r: Option<(int, nat)>)
    ensures r.Some? ==> 0 < r.value.1 <= |s|
  {
    var signed := |s| > 0 && (s[0] == '+' || s[0] == '-');
    var rest := if signed then s[1..] else s;
    var d := DigitRun(rest);
    if |d| == 0 then None
    else
      var n: int := Value(d);
      var v := if signed && s[0] == '-' then -n else n;
      Some((v, |d| + if signed then 1 else 0))
  }

  function Prepend(it: Item, r: Scan): Scan { Scan([it] + r.items, r.stop) }

  /** Runs the directives of a format over an input, as `sscanf` does. */
  function Run(fmt: seq<Directive>, s: string): (r: Scan)
    ensures |r.items| <= |fmt|
    decreases |fmt|
  {
    if |fmt| == 0 then Scan([], Finished)
    else match fmt[0]
      case Blank => Run(fmt[1..], SkipSpace(s))
      case Chr =>
        if |s| == 0 then Scan([], InputFailure)
        else Prepend(CharItem(s[0]), Run(fmt[1..], s[1..]))
      case Word =>
        var t := SkipSpace(s);
        if |t| == 0 then Scan([], InputFailure)
        else
          var w := WordRun(t);
          Prepend(WordItem(w), Run(fmt[1..], t[|w|..]))
      case Dec =>
        var t := SkipSpace(s);
        if |t| == 0 then Scan([], InputFailure)
        else match ScanInt(t)
          case None => Scan([], MatchingFailure)
          case Some((v, len)) => Prepend(IntItem(v), Run(fmt[1..], t[len..]))
  }

  /** The value `sscanf` returns: EOF (-1) when the input ran out before the
      first conversion, otherwise the number of items stored */
  function Count(r: Scan): int {
    if |r.items| == 0 && r.stop == InputFailure then -1 else |r.items|
  }

  /** The conversion directives of a format: every one but white space */
  function Conversions(fmt: seq<Directive>): nat {
    if |fmt| == 0 then 0 else (if fmt[0] == Blank then 0 else 1) + Conversions(fmt[1..])
  }

  /** Each conversion that succeeds stores exactly one item and scanning
      only stops early at a conversion, so the count `sscanf` returns
      reaches the number of conversions exactly when the whole format
      matched. */
  lemma {:induction false} RunStoresEveryConversion(fmt: seq<Directive>, s: string)
    ensures |Run(fmt, s).items| <= Conversions(fmt)
    ensures -1 <= Count(Run(fmt, s)) <= Conversions(fmt)
    ensures Run(fmt, s).stop == Finished <==> |Run(fmt, s).items| == Conversions(fmt)
    ensures 0 < Conversions(fmt) ==> (Count(Run(fmt, s)) == Conversions(fmt) <==> Run(fmt, s).stop == Finished)
    decreases |fmt|
  {
    if |fmt| > 0 {
      match fmt[0]
      case Blank => RunStoresEveryConversion(fmt[1..], SkipSpace(s));
      case Chr =>
        if |s| > 0 { RunStoresEveryConversion(fmt[1..], s[1..]); }
      case Word =>
        var t := SkipSpace(s);
        if |t| > 0 { RunStoresEveryConversion(fmt[1..], t[|WordRun(t)|..]); }
      case Dec =>
        var t := SkipSpace(s);
        if |t| > 0 && ScanInt(t).Some? {
          RunStoresEveryConversion(fmt[1..], t[ScanInt(t).value.1..]);
        }
    }
  }

  /** The i-th stored item when it is a number; None when the conversion
      never happened and the variable keeps its old value */
  function IntAt(r: Scan, i: nat): Option<int> {
    if i < |r.items| && r.items[i].IntItem? then Some(r.items[i].n) else None
  }

  /** The first stored item when it is a character */
  function Phase(r: Scan): Option<char> {
    if 0 < |r.items| && r.items[0].CharItem? then Some(r.items[0].c) else None
  }

  /** With `%c` first, `sscanf` returns EOF exactly on empty input, and
      otherwise stores the first character as it is. */
  lemma LeadingChar(fmt: seq<Directive>, s: string)
    requires 0 < |fmt| && fmt[0] == Chr
    ensures Count(Run(fmt, s)) < 0 <==> |s| == 0
    ensures 0 < |s| ==> Phase(Run(fmt, s)) == Some(s[0])
  {
  }

  lemma {:induction false} DigitRunOf(d: string, r: string)
    requires AllDigits(d)
    requires |r| == 0 || !IsDigit(r[0])
    ensures DigitRun(d + r) == d
    decreases |d|
  {
    if |d| > 0 {
      assert (d + r)[0] == d[0];
      assert (d + r)[1..] == d[1..] + r;
      DigitRunOf(d[1..], r);
    } else {
      assert d + r == r;
    }
  }

  lemma {:induction false} WordRunOf(w: string, r: string)
    requires forall i :: 0 <= i < |w| ==> !IsSpace(w[i])
    requires |r| == 0 || IsSpace(r[0])
    ensures WordRun(w + r) == w
    decreases |w|
  {
    if |w| > 0 {
      assert (w + r)[0] == w[0];
      assert (w + r)[1..] == w[1..] + r;
      WordRunOf(w[1..], r);
    } else {
      assert w + r == r;
    }
  }

  /** `%c` stores the next character. */
  lemma StepChr(fmt: seq<Directive>, c: char, r: string)
    requires 0 < |fmt| && fmt[0] == Chr
    ensures Run(fmt, [c] + r) == Prepend(CharItem(c), Run(fmt[1..], r))
  {
    assert ([c] + r)[1..] == r;
  }

  /** A white-space directive consumes one space before a non-space. */
  lemma StepBlank(fmt: seq<Directive>, r: string)
    requires 0 < |fmt| && fmt[0] == Blank
    requires 0 < |r| && !IsSpace(r[0])
    ensures Run(fmt, [' '] + r) == Run(fmt[1..], r)
  {
    assert ([' '] + r)[1..] == r;
  }

  /** `%s` stores a word that ends at white space. */
  lemma StepWord(fmt: seq<Directive>, w: string, r: string)
    requires 0 < |fmt| && fmt[0] == Word
    requires 0 < |w| && forall i :: 0 <= i < |w| ==> !IsSpace(w[i])
    requires |r| == 0 || IsSpace(r[0])
    ensures Run(fmt, w + r) == Prepend(WordItem(w), Run(fmt[1..], r))
  {
    assert (w + r)[0] == w[0];
    WordRunOf(w, r);
    assert (w + r)[|w|..] == r;
  }

  lemma ScanDigits(d: string, r: string)
    requires 0 < |d| && AllDigits(d)
    requires |r| == 0 || !IsDigit(r[0])
    ensures ScanInt(d + r) == Some((Value(d) as int, |d|))
  {
    var s := d + r;
    assert s[0] == d[0];
    assert !(s[0] == '+' || s[0] == '-');
    DigitRunOf(d, r);
    assert DigitRun(s) == d;
  }

  /** One `%d` step, for any input that starts with a decimal */
  lemma RunAtDec(fmt: seq<Directive>, s: string)
    requires 0 < |fmt| && fmt[0] == Dec
    requires 0 < |s| && !IsSpace(s[0]) && ScanInt(s).Some?
    ensures Run(fmt, s) == Prepend(IntItem(ScanInt(s).value.0), Run(fmt[1..], s[ScanInt(s).value.1..]))
  {
  }

  /** `%d` stores the value of an unsigned digit run that ends at a non-digit. */
  lemma StepDec(fmt: seq<Directive>, d: string, r: string)
    requires 0 < |fmt| && fmt[0] == Dec
    requires 0 < |d| && AllDigits(d)
    requires |r| == 0 || !IsDigit(r[0])
    ensures Run(fmt, d + r) == Prepend(IntItem(Value(d)), Run(fmt[1..], r))
  {
    var s := d + r;
    ScanDigits(d, r);
    assert s[0] == d[0];
    RunAtDec(fmt, s);
    assert s[|d|..] == r;
  }

  /** `%d` and a white-space directive over a digit run, one space and a
      non-space: the value is stored and scanning resumes after the space. */
  lemma StepDecBlank(fmt: seq<Directive>, d: string, r: string)
    requires 2 <= |fmt| && fmt[0] == Dec && fmt[1] == Blank
    requires 0 < |d| && AllDigits(d)
    requires 0 < |r| && !IsSpace(r[0])
    ensures Run(fmt, d + ([' '] + r)) == Prepend(IntItem(Value(d)), Run(fmt[2..], r))
  {
    StepDec(fmt, d, [' '] + r);
    StepBlank(fmt[1..], r);
    assert fmt[1..][1..] == fmt[2..];
  }

  /** `%c` and a white-space directive over a character, one space and a
      non-space */
  lemma StepChrBlank(fmt: seq<Directive>, c: char, r: string)
    requires 2 <= |fmt| && fmt[0] == Chr && fmt[1] == Blank
    requires 0 < |r| && !IsSpace(r[0])
    ensures Run(fmt, [c] + ([' '] + r)) == Prepend(CharItem(c), Run(fmt[2..], r))
  {
    StepChr(fmt, c, [' '] + r);
    StepBlank(fmt[1..], r);
    assert fmt[1..][1..] == fmt[2..];
  }

  /** "%d %d" over two digit runs separated by a space and ended by a
      non-digit */
  lemma StepTwoDec(fmt: seq<Directive>, d2: string, d3: string, r: string)
    requires 3 <= |fmt| && fmt[0] == Dec && fmt[1] == Blank && fmt[2] == Dec
    requires 0 < |d2| && AllDigits(d2) && 0 < |d3| && AllDigits(d3)
    requires |r| == 0 || !IsDigit(r[0])
    ensures Run(fmt, d2 + ([' '] + (d3 + r))) ==
      Prepend(IntItem(Value(d2)), Prepend(IntItem(Value(d3)), Run(fmt[3..], r)))
  {
    StepDec(fmt[2..], d3, r);
    assert fmt[2..][1..] == fmt[3..];
    assert (d3 + r)[0] == d3[0];
    StepDecBlank(fmt, d2, d3 + r);
  }

  /** "%ld %ld %d" over three digit runs separated by spaces and ended by
      a non-digit: their three values, and scanning resumes at that character */
  lemma StepThreeDec(fmt: seq<Directive>, d1: string, d2: string, d3: string, r: string)
    requires 5 <= |fmt| && fmt[0] == Dec && fmt[1] == Blank && fmt[2] == Dec && fmt[3] == Blank && fmt[4] == Dec
    requires 0 < |d1| && AllDigits(d1) && 0 < |d2| && AllDigits(d2) && 0 < |d3| && AllDigits(d3)
    requires |r| == 0 || !IsDigit(r[0])
    ensures Run(fmt, d1 + ([' '] + (d2 + ([' '] + (d3 + r))))) ==
      Prepend(IntItem(Value(d1)), Prepend(IntItem(Value(d2)), Prepend(IntItem(Value(d3)), Run(fmt[5..], r))))
  {
    StepTwoDec(fmt[2..], d2, d3, r);
    assert fmt[2..][3..] == fmt[5..];
    var x2 := d2 + ([' '] + (d3 + r));
    assert x2[0] == d2[0];
    StepDecBlank(fmt, d1, x2);
  }

  /** "%c %s %ld %ld %d" over a character, a word and three digit runs,
      each followed by one space except the last, which ends at a non-digit:
      the five items it stores, ahead of whatever the rest of the format
      stores from there */
  lemma StepCharWordThreeDec(fmt: seq<Directive>, c: char, w: string, d1: string, d2: string, d3: string, r: string)
    requires 9 <= |fmt| && fmt[0] == Chr && fmt[1] == Blank && fmt[2] == Word && fmt[3] == Blank
    requires fmt[4] == Dec && fmt[5] == Blank && fmt[6] == Dec && fmt[7] == Blank && fmt[8] == Dec
    requires 0 < |w| && forall i :: 0 <= i < |w| ==> !IsSpace(w[i])
    requires 0 < |d1| && AllDigits(d1) && 0 < |d2| && AllDigits(d2) && 0 < |d3| && AllDigits(d3)
    requires |r| == 0 || !IsDigit(r[0])
    ensures var items := Run(fmt, [c] + ([' '] + (w + ([' '] + (d1 + ([' '] + (d2 + ([' '] + (d3 + r))))))))).items;
      && 5 <= |items|
      && items[0] == CharItem(c) && items[1] == WordItem(w)
      && items[2] == IntItem(Value(d1)) && items[3] == IntItem(Value(d2)) && items[4] == IntItem(Value(d3))
  {
    var numbers := d1 + ([' '] + (d2 + ([' '] + (d3 + r))));
    assert numbers[0] == d1[0];
    StepCharWord(fmt, c, w, numbers);
    StepThreeDec(fmt[4..], d1, d2, d3, r);
    assert fmt[4..][5..] == fmt[9..];
    PrependFive(CharItem(c), WordItem(w), IntItem(Value(d1)), IntItem(Value(d2)), IntItem(Value(d3)), Run(fmt[9..], r));
  }

  /** "%c %s " over a character, a space, a word and a space */
  lemma StepCharWord(fmt: seq<Directive>, c: char, w: string, rest: string)
    requires 4 <= |fmt| && fmt[0] == Chr && fmt[1] == Blank && fmt[2] == Word && fmt[3] == Blank
    requires 0 < |w| && forall i :: 0 <= i < |w| ==> !IsSpace(w[i])
    requires 0 < |rest| && !IsSpace(rest[0])
    ensures Run(fmt, [c] + ([' '] + (w + ([' '] + rest)))) ==
      Prepend(CharItem(c), Prepend(WordItem(w), Run(fmt[4..], rest)))
  {
    var afterWord := [' '] + rest;
    StepBlank(fmt[3..], rest);
    assert fmt[3..][1..] == fmt[4..];
    StepWord(fmt[2..], w, afterWord);
    assert fmt[2..][1..] == fmt[3..];
    assert (w + afterWord)[0] == w[0];
    StepChrBlank(fmt, c, w + afterWord);
  }

  /** Five items stored one after the other, in front of the rest */
  lemma PrependFive(a: Item, b: Item, c: Item, d: Item, e: Item, tail: Scan)
    ensures var items := Prepend(a, Prepend(b, Prepend(c, Prepend(d, Prepend(e, tail))))).items;
      5 <= |items| && items[0] == a && items[1] == b && items[2] == c && items[3] == d && items[4] == e
  {
  }
}

=== FILE: server.dfy ===
/**
 The echo server (server.c): the port check of `open`, `parseHello` and
 `parseMeasure` over the C-string view of their buffers, the handshake of
 one connection and its probe loop as a step function over the expected
 sequence number and the two parity buffers.
 */
module Server {
  import opened Text
  import opened Scanf

  const HELLO_MESSAGE_SIZE: nat := 128
  const UINT16_MAX: int := 65535
  const PHASE_HELLO: char := 'h'
  const PHASE_MEASURE: char := 'm'
  const MEASURE_ACCEPTED: string := "200 OK - Ready"
  /** `sizeof(measure_accepted_m)` bytes go out, the NUL included */
  const HELLO_REPLY: seq<char> := MEASURE_ACCEPTED + [NUL]
  /** "%c %s %ld %ld %d \n" */
  const HELLO_FORMAT: seq<Directive> := [Chr, Blank, Word, Blank, Dec, Blank, Dec, Blank, Dec, Blank, Blank]
  /** "%c %ld %s\n" */
  const MEASURE_FORMAT: seq<Directive> := [Chr, Blank, Dec, Blank, Word, Blank]

  // ---------------------------------------------------------------- open

  /** `(uint16_t) port`: C converts to an unsigned type modulo 2^16. */
  function Uint16(port: int): nat {
    port % 0x1_0000
  }

  /** Lines 119-132: the port `open` stores in `server_addr->sin_port`, or
      None when it gives up. */
  function OpenPort(port: int): (r: Option<nat>)
    ensures r.Some? <==> 0 < port < UINT16_MAX
    ensures r.Some? ==> r.value == port
  {
    if port <= 0 || port >= UINT16_MAX then None else Some(Uint16(port))
  }

  /** 65535 is a valid 16-bit port and the usage text offers it, but it is
      refused. */
  lemma TopPortRefused()
    ensures Uint16(UINT16_MAX) == UINT16_MAX
    ensures OpenPort(UINT16_MAX).None?
  {
  }

  /** The range check guards the `(uint16_t)` cast: a port `open` accepts
      is stored unchanged, every port the cast would change is refused, and
      of the ports the cast keeps only 0 and 65535 are refused. */
  lemma OpenPortGuardsCast(port: int)
    ensures OpenPort(port).Some? ==> Uint16(port) == port
    ensures Uint16(port) != port ==> OpenPort(port).None?
    ensures OpenPort(port).None? && Uint16(port) == port <==> port == 0 || port == UINT16_MAX
  {
  }

  // ---------------------------------------------------------------- parsing

  /** What `parseHello` stores: the message size and the delay when their
      conversions happened (None: the variable keeps an indeterminate
      value), and the first probe number */
  datatype Config = Config(msgSize: Option<int>, delay: Option<int>, actualProbe: int)

  /** `parseHello`: None for -1. */
  function ParseHello(message: seq<char>): (r: Option<Config>)
    ensures r.None? <==> |CString(message)| == 0 || CString(message)[0] != PHASE_HELLO
    ensures r.Some? ==> r.value.actualProbe == 1
  {
    var s := CString(message);
    var scan := Run(HELLO_FORMAT, s);
    LeadingChar(HELLO_FORMAT, s);
    if Count(scan) < 0 || Phase(scan) != Some(PHASE_HELLO) then None
    else Some(Config(IntAt(scan, 3), IntAt(scan, 4), 1))
  }

  /** `parseMeasure`: true for 1. A number field that does not convert
      leaves `probe` indeterminate; it is read as a mismatch. */
  function ParseMeasure(message: seq<char>, expected: int): bool {
    var s := CString(message);
    var scan := Run(MEASURE_FORMAT, s);
    !(Count(scan) < 0 || Phase(scan) != Some(PHASE_MEASURE) || IntAt(scan, 1) != Some(expected))
  }

  /** Only a message whose C string starts with 'm' can match. */
  lemma MatchNeedsPhase(message: seq<char>, expected: int)
    ensures ParseMeasure(message, expected) ==> 0 < |CString(message)| && CString(message)[0] == PHASE_MEASURE
  {
    LeadingChar(MEASURE_FORMAT, CString(message));
  }

  /** A message whose first character is not 'm' is never a matching probe. */
  lemma WrongPhaseRejected(message: seq<char>, expected: int)
    requires 0 < |message| && message[0] != NUL && message[0] != PHASE_MEASURE
    ensures !ParseMeasure(message, expected)
  {
    assert CString(message)[0] == message[0];
  }

  /** A NUL-free head keeps its place in the C-string view, and a
      non-NUL character after it is the next one seen. */
  lemma CStringAfterHead(message: seq<char>, k: nat)
    requires k < |message| && NUL !in message[..k] && message[k] != NUL
    ensures CString(message) == message[..k] + CString(message[k..])
    ensures 0 < |CString(message[k..])| && CString(message[k..])[0] == message[k]
  {
    assert message == message[..k] + message[k..];
    CStringOfPrefix(message[..k], message[k..]);
  }

  /** "%c %ld" over "m <digits>" and a non-digit: 'm' and the digits' value */
  lemma ScanMeasureHead(digits: string, after: string)
    requires 0 < |digits| && AllDigits(digits)
    requires 0 < |after| && !IsDigit(after[0])
    ensures var scan := Run(MEASURE_FORMAT, [PHASE_MEASURE] + " " + digits + after);
      && 2 <= |scan.items|
      && scan.items[0] == CharItem(PHASE_MEASURE)
      && scan.items[1] == IntItem(Value(digits))
  {
    var fmt := MEASURE_FORMAT;
    assert [PHASE_MEASURE] + " " + digits + after == [PHASE_MEASURE] + ([' '] + (digits + after));
    StepChrBlank(fmt, PHASE_MEASURE, digits + after);
    StepDec(fmt[2..], digits, after);
  }

  /** `parseMeasure` on a message that starts "m <digits>" and a white-space
      character reads the digits as the probe number, whatever follows. */
  lemma ParseMeasureOfHead(digits: string, message: seq<char>, expected: int)
    requires 0 < |digits| && AllDigits(digits)
    requires |digits| + 2 < |message|
    requires message[..|digits| + 2] == [PHASE_MEASURE] + " " + digits
    requires IsSpace(message[|digits| + 2]) && message[|digits| + 2] != NUL
    ensures ParseMeasure(message, expected) <==> Value(digits) == expected
  {
    var k := |digits| + 2;
    forall i | 0 <= i < k
      ensures message[..k][i] != NUL
    {
      if i >= 2 {
        assert message[..k][i] == digits[i - 2];
      }
    }
    CStringAfterHead(message, k);
    ScanMeasureHead(digits, CString(message[k..]));
  }

  /** The probe number at the head of a frame, as `parseMeasure` reads it
      whatever follows: "m <digits>" and a white-space character other
      than NUL. None when the head has another shape. */
  function HeadNumber(chunk: seq<char>): Option<nat> {
    if 2 <= |chunk| && chunk[0] == PHASE_MEASURE && chunk[1] == ' ' then
      var d := DigitRun(chunk[2..]);
      var k := |d| + 2;
      if 0 < |d| && k < |chunk| && IsSpace(chunk[k]) && chunk[k] != NUL then Some(Value(d)) else None
    else None
  }

  /** "m <digits>" and a white-space character other than NUL carry the
      digits' value. */
  lemma HeadNumberOf(chunk: seq<char>, digits: string)
    requires 0 < |digits| && AllDigits(digits)
    requires |digits| + 2 < |chunk|
    requires chunk[..|digits| + 2] == [PHASE_MEASURE] + " " + digits
    requires IsSpace(chunk[|digits| + 2]) && chunk[|digits| + 2] != NUL
    ensures HeadNumber(chunk) == Some(Value(digits))
  {
    var k := |digits| + 2;
    assert chunk[0] == chunk[..k][0] && chunk[1] == chunk[..k][1];
    assert chunk[2..] == chunk[..k][2..] + chunk[k..];
    DigitRunOf(digits, chunk[k..]);
  }

  /** A frame with a well-formed head is accepted exactly when its number
      is the expected one, whatever bytes follow it in the buffer. */
  lemma HeadDecides(chunk: seq<char>, tail: seq<char>, expected: int)
    requires HeadNumber(chunk).Some?
    ensures ParseMeasure(chunk + tail, expected) <==> HeadNumber(chunk).value == expected
  {
    var d := DigitRun(chunk[2..]);
    var k := |d| + 2;
    var m := chunk + tail;
    assert chunk[..k] == [PHASE_MEASURE] + " " + chunk[2..][..|d|];
    assert m[..k] == chunk[..k] && m[k] == chunk[k];
    ParseMeasureOfHead(d, m, expected);
  }

  // ---------------------------------------------------------------- recv

  /** What one `recv` returned: some bytes (none when the peer closed) or
      an error */
  datatype Input = Chunk(bytes: seq<char>) | RecvError

  /** `recv` into a buffer: the bytes received overwrite its head, the rest
      keeps what was there. */
  function Receive(buf: seq<char>, chunk: seq<char>): (b: seq<char>)
    requires |chunk| <= |buf|
    ensures |b| == |buf|
    ensures b[..|chunk|] == chunk && b[|chunk|..] == buf[|chunk|..]
  {
    chunk + buf[|chunk|..]
  }

  // ---------------------------------------------------------------- handshake

  datatype HelloOutcome =
    | RecvFailure             // exit(EXIT_FAILURE)
    | Malformed               // break: the server stops accepting
    | SendMismatch            // exit(EXIT_FAILURE) after the reply went out
    | Accepted(config: Config)

  /** What one handshake sends back and how it ends */
  datatype Handshake = Handshake(sent: seq<char>, outcome: HelloOutcome)

  /** Lines 68-81 as written: a HELLO that parses gets the reply in full,
      and then the number of bytes sent is compared with the number of
      bytes of the HELLO received. */
  function AcceptHelloAsWritten(buf: seq<char>, input: Input): (r: Handshake)
    requires |buf| == HELLO_MESSAGE_SIZE
    requires input.Chunk? ==> |input.bytes| <= HELLO_MESSAGE_SIZE
    ensures r.outcome == RecvFailure <==> input.RecvError?
    ensures r.outcome == Malformed <==> input.Chunk? && ParseHello(Receive(buf, input.bytes)).None?
    ensures r.outcome.Accepted? ==> |input.bytes| == |HELLO_REPLY|
    ensures r.outcome.Accepted? <==> input.Chunk? && |input.bytes| == |HELLO_REPLY| && ParseHello(Receive(buf, input.bytes)).Some?
    ensures r.outcome.Accepted? ==> Some(r.outcome.config) == ParseHello(Receive(buf, input.bytes))
    ensures r.sent == (if r.outcome.Accepted? || r.outcome.SendMismatch? then HELLO_REPLY else [])
  {
    match input
    case RecvError => Handshake([], RecvFailure)
    case Chunk(bytes) =>
      match ParseHello(Receive(buf, bytes))
      case None => Handshake([], Malformed)
      case Some(config) =>
        var sent := HELLO_REPLY;
        Handshake(sent, if |sent| != |bytes| then SendMismatch else Accepted(config))
  }

  /** Lines 68-81 with the send checked against the length of the reply
      it sends: every well-formed HELLO gets the reply and is accepted. */
  function AcceptHello(buf: seq<char>, input: Input): (r: Handshake)
    requires |buf| == HELLO_MESSAGE_SIZE
    requires input.Chunk? ==> |input.bytes| <= HELLO_MESSAGE_SIZE
    ensures !r.outcome.SendMismatch?
    ensures r.outcome == RecvFailure <==> input.RecvError?
    ensures r.outcome == Malformed <==> input.Chunk? && ParseHello(Receive(buf, input.bytes)).None?
    ensures r.outcome.Accepted? <==> input.Chunk? && ParseHello(Receive(buf, input.bytes)).Some?
    ensures r.outcome.Accepted? ==> Some(r.outcome.config) == ParseHello(Receive(buf, input.bytes))
    ensures r.sent == (if r.outcome.Accepted? then HELLO_REPLY else [])
  {
    match input
    case RecvError => Handshake([], RecvFailure)
    case Chunk(bytes) =>
      match ParseHello(Receive(buf, bytes))
      case None => Handshake([], Malformed)
      case Some(config) => Handshake(HELLO_REPLY, Accepted(config))
  }

  // ---------------------------------------------------------------- serve loop

  /** The probe number expected next, the buffer the next frame is
      received into and the other one, each msg_size bytes long */
  datatype ServeState = ServeState(expected: nat, current: seq<char>, other: seq<char>)

  /** receivedData1: line 88 receives into it when the expected number is
      even, so it is the current buffer exactly then. */
  function Data1(s: ServeState): seq<char> {
    if s.expected % 2 == 0 then s.current else s.other
  }

  /** receivedData2, the current buffer when the expected number is odd */
  function Data2(s: ServeState): seq<char> {
    if s.expected % 2 == 0 then s.other else s.current
  }

  /** Line 85: a connection starts expecting probe 1, so it receives into
      receivedData2 first; the buffers hold whatever their storage held. */
  function FreshState(init1: seq<char>, init2: seq<char>): (s: ServeState)
    ensures s.expected == 1
    ensures Data1(s) == init1 && Data2(s) == init2
  {
    ServeState(1, init2, init1)
  }

  /** A connection whose counter starts at the client's first probe
      number, 0 */
  function AlignedState(init1: seq<char>, init2: seq<char>): (s: ServeState)
    ensures s.expected == 0
    ensures Data1(s) == init1 && Data2(s) == init2
  {
    ServeState(0, init1, init2)
  }

  datatype Step = Exit | Reply(next: ServeState, sent: seq<char>, accepted: bool)

  /** Lines 93-110 once the received frame has been judged: an accepted
      frame is echoed from its own buffer, the expected number advances and
      the parities of the two buffers swap roles; a rejected one is
      answered with the other buffer and the next frame is received into
      the same buffer again. */
  function Answer(s: ServeState, chunk: seq<char>, ok: bool): (r: Step)
    requires |s.current| == |s.other| && |chunk| <= |s.current|
    ensures r.Reply? && r.accepted == ok
    ensures |r.next.current| == |s.current| && |r.next.other| == |s.other|
    ensures |r.sent| == |chunk|
  {
    var buf := Receive(s.current, chunk);
    if ok then Reply(ServeState(s.expected + 1, s.other, buf), buf[..|chunk|], true)
    else Reply(ServeState(s.expected, buf, s.other), s.other[..|chunk|], false)
  }

  /** In the program's own terms: the frame lands in receivedData1 when
      the expected number is even and in receivedData2 when it is odd; a
      match is echoed from the buffer it landed in, a mismatch is answered
      from the other one; the number advances only on a match. */
  lemma AnswerByParity(s: ServeState, chunk: seq<char>, ok: bool)
    requires |s.current| == |s.other| && |chunk| <= |s.current|
    ensures var r := Answer(s, chunk, ok);
      var even := s.expected % 2 == 0;
      && r.next.expected == (if ok then s.expected + 1 else s.expected)
      && Data1(r.next) == (if even then Receive(Data1(s), chunk) else Data1(s))
      && Data2(r.next) == (if even then Data2(s) else Receive(Data2(s), chunk))
      && r.sent == (if even == ok then Data1(r.next) else Data2(r.next))[..|chunk|]
  {
  }

  /** An accepted frame is echoed and lands in the other buffer; a rejected
      one is answered with the other buffer, which keeps its bytes. */
  lemma AnswerSwaps(s: ServeState, chunk: seq<char>, ok: bool)
    requires |s.current| == |s.other| && |chunk| <= |s.current|
    ensures var r := Answer(s, chunk, ok);
      && (ok ==> r.sent == chunk && r.next.other == Receive(s.current, chunk) && r.next.current == s.other)
      && (!ok ==> r.sent == s.other[..|chunk|] && r.next.current == Receive(s.current, chunk) && r.next.other == s.other)
  {
  }

  /** Lines 86-111, one pass of the loop: `recv` into the buffer of the
      expected number's parity, `parseMeasure` on it, then the answer. */
  function Serve(s: ServeState, input: Input): (r: Step)
    requires |s.current| == |s.other|
    requires input.Chunk? ==> |input.bytes| <= |s.current|
    ensures r.Exit? <==> input.RecvError?
    ensures r.Reply? ==> r.accepted == ParseMeasure(Receive(s.current, input.bytes), s.expected)
  {
    match input
    case RecvError => Exit
    case Chunk(chunk) => Answer(s, chunk, ParseMeasure(Receive(s.current, chunk), s.expected))
  }

  /** The replies, verdicts and final state after serving a run of chunks */
  datatype Trace = Trace(final: ServeState, sent: seq<seq<char>>, accepted: seq<bool>)

  /** How many of the verdicts are acceptances */
  function Accepts(v: seq<bool>): nat {
    if |v| == 0 then 0 else (if v[0] then 1 else 0) + Accepts(v[1..])
  }

  /** The loop over a run of chunks, none of them a receive error */
  function ServeAll(s: ServeState, chunks: seq<seq<char>>): (t: Trace)
    requires |s.current| == |s.other|
    requires forall i :: 0 <= i < |chunks| ==> |chunks[i]| <= |s.current|
    ensures |t.sent| == |chunks| && |t.accepted| == |chunks|
    ensures |t.final.current| == |s.current| && |t.final.other| == |s.other|
    ensures t.final.expected == s.expected + Accepts(t.accepted)
    ensures forall i :: 0 <= i < |chunks| ==> |t.sent[i]| == |chunks[i]|
    decreases |chunks|
  {
    if |chunks| == 0 then Trace(s, [], [])
    else
      var r := Serve(s, Chunk(chunks[0]));
      var rest := ServeAll(r.next, chunks[1..]);
      Trace(rest.final, [r.sent] + rest.sent, [r.accepted] + rest.accepted)
  }

  /** The other buffer holds the frame `last` at its head. */
  predicate Holds(s: ServeState, last: seq<char>) {
    |last| <= |s.other| && s.other[..|last|] == last
  }

  /** The replies the loop is meant to give, from the verdicts alone: the
      echo of each accepted frame, and for each rejected one the frame
      accepted most recently before it (`last` before any). */
  function ResendReplies(last: seq<char>, chunks: seq<seq<char>>, accepted: seq<bool>): (rs: seq<seq<char>>)
    requires |accepted| == |chunks|
    ensures |rs| == |chunks|
    decreases |chunks|
  {
    if |chunks| == 0 then []
    else if accepted[0] then [chunks[0]] + ResendReplies(chunks[0], chunks[1..], accepted[1..])
    else [last] + ResendReplies(last, chunks[1..], accepted[1..])
  }

  /** When every frame has the length of the one the other buffer holds,
      the loop answers exactly as ResendReplies says: accepted frames are
      echoed and rejected ones get the last accepted frame back. */
  lemma {:induction false} RepliesResendLastAccepted(s: ServeState, last: seq<char>, chunks: seq<seq<char>>)
    requires |s.current| == |s.other|
    requires Holds(s, last)
    requires forall i :: 0 <= i < |chunks| ==> |chunks[i]| == |last|
    ensures var t := ServeAll(s, chunks);
      t.sent == ResendReplies(last, chunks, t.accepted)
    decreases |chunks|
  {
    if |chunks| > 0 {
      var r := Serve(s, Chunk(chunks[0]));
      var t := ServeAll(s, chunks);
      var rest := ServeAll(r.next, chunks[1..]);
      assert t.accepted[1..] == rest.accepted;
      if r.accepted {
        assert Holds(r.next, chunks[0]);
        RepliesResendLastAccepted(r.next, chunks[0], chunks[1..]);
      } else {
        assert r.sent == last;
        RepliesResendLastAccepted(r.next, last, chunks[1..]);
      }
    }
  }

  /** The frames carry e, e+1, e+2, ... at their heads, in turn. */
  predicate NumberedFrom(chunks: seq<seq<char>>, e: int)
    decreases |chunks|
  {
    0 < |chunks| ==> HeadNumber(chunks[0]) == Some(e) && NumberedFrom(chunks[1..], e + 1)
  }

  /** One pass over a frame that carries the expected number: it is
      accepted and echoed, and the rest of the run is served from the
      advanced state. */
  lemma ServeExpectedHead(s: ServeState, chunks: seq<seq<char>>)
    requires |s.current| == |s.other|
    requires 0 < |chunks| && HeadNumber(chunks[0]) == Some(s.expected)
    requires forall i :: 0 <= i < |chunks| ==> |chunks[i]| <= |s.current|
    ensures var r := Serve(s, Chunk(chunks[0]));
      var rest := ServeAll(r.next, chunks[1..]);
      && |r.next.current| == |r.next.other| == |s.current|
      && r.next.expected == s.expected + 1
      && ServeAll(s, chunks) == Trace(rest.final, [chunks[0]] + rest.sent, [true] + rest.accepted)
  {
    var c := chunks[0];
    HeadDecides(c, s.current[|c|..], s.expected);
  }

  /** Frames whose heads carry the numbers the loop expects, in turn, are
      all accepted and echoed, and the loop advances once per frame. */
  lemma {:induction false} InOrderAllAccepted(s: ServeState, chunks: seq<seq<char>>)
    requires |s.current| == |s.other|
    requires forall i :: 0 <= i < |chunks| ==> |chunks[i]| <= |s.current|
    requires NumberedFrom(chunks, s.expected)
    ensures var t := ServeAll(s, chunks);
      && false !in t.accepted
      && t.sent == chunks
      && t.final.expected == s.expected + |chunks|
    decreases |chunks|
  {
    if |chunks| > 0 {
      ServeExpectedHead(s, chunks);
      var r := Serve(s, Chunk(chunks[0]));
      var rest := ServeAll(r.next, chunks[1..]);
      RestFits(chunks, |r.next.current|);
      InOrderAllAccepted(r.next, chunks[1..]);
      EchoThenEchoes(chunks, rest.sent, rest.accepted);
    }
  }

  /** Frames that fit a buffer still fit it after the first one is served. */
  lemma RestFits(chunks: seq<seq<char>>, size: nat)
    requires 0 < |chunks| && forall i :: 0 <= i < |chunks| ==> |chunks[i]| <= size
    ensures forall i :: 0 <= i < |chunks[1..]| ==> |chunks[1..][i]| <= size
  {
  }

  /** An echo of the first frame in front of echoes of the rest echoes
      the whole run. */
  lemma EchoThenEchoes(chunks: seq<seq<char>>, sent: seq<seq<char>>, accepted: seq<bool>)
    requires 0 < |chunks| && sent == chunks[1..] && false !in accepted
    ensures [chunks[0]] + sent == chunks
    ensures false !in [true] + accepted
  {
    assert chunks == [chunks[0]] + chunks[1..];
  }

  /** A frame whose head carries any other number is rejected: the loop
      answers from the buffer it did not write and keeps waiting for the
      same number. */
  lemma ServeOtherHead(s: ServeState, chunks: seq<seq<char>>)
    requires |s.current| == |s.other|
    requires 0 < |chunks| && HeadNumber(chunks[0]).Some? && HeadNumber(chunks[0]).value != s.expected
    requires forall i :: 0 <= i < |chunks| ==> |chunks[i]| <= |s.current|
    ensures var r := Serve(s, Chunk(chunks[0]));
      var rest := ServeAll(r.next, chunks[1..]);
      && |r.next.current| == |r.next.other| == |s.current|
      && r.next.expected == s.expected
      && ServeAll(s, chunks) == Trace(rest.final, [s.other[..|chunks[0]|]] + rest.sent, [false] + rest.accepted)
  {
    var c := chunks[0];
    HeadDecides(c, s.current[|c|..], s.expected);
  }

  /** One frame with a wrong number followed by frames numbered from the
      expected one: only the first is rejected, and its reply is the stale
      content of the other buffer. */
  lemma RejectedThenInOrder(s: ServeState, chunks: seq<seq<char>>)
    requires |s.current| == |s.other|
    requires forall i :: 0 <= i < |chunks| ==> |chunks[i]| <= |s.current|
    requires 0 < |chunks| && HeadNumber(chunks[0]).Some? && HeadNumber(chunks[0]).value != s.expected
    requires NumberedFrom(chunks[1..], s.expected)
    ensures var t := ServeAll(s, chunks);
      && |t.accepted| == |t.sent| == |chunks|
      && !t.accepted[0]
      && t.sent[0] == s.other[..|chunks[0]|]
      && false !in t.accepted[1..]
      && t.sent[1..] == chunks[1..]
      && t.final.expected == s.expected + |chunks| - 1
  {
    ServeOtherHead(s, chunks);
    var r := Serve(s, Chunk(chunks[0]));
    RestFits(chunks, |r.next.current|);
    InOrderAllAccepted(r.next, chunks[1..]);
    var rest := ServeAll(r.next, chunks[1..]);
    assert ([false] + rest.accepted)[1..] == rest.accepted;
    assert ([s.other[..|chunks[0]|]] + rest.sent)[1..] == rest.sent;
  }
}

=== FILE: session.dfy ===
/**
 The two programs against each other: what the server's parsers make of
 the client's HELLO and MEASURE frames, what the client makes of the
 server's replies, and how a run of probes goes through the serve loop.
 */
module Session {
  import opened Text
  import opened Scanf
  import Client
  import Server

  /** A frame whose number fits starts "m <digits>", followed by a
      white-space character that is not NUL. */
  lemma FrameHead(p: nat, payload: nat)
    requires Client.NumberFits(p, payload)
    ensures var f := Client.MeasureFrame(p, payload);
      var k := |Pad5(p)| + 2;
      && k < |f|
      && f[..k] == [Client.PHASE_MEASURE] + " " + Pad5(p)
      && (f[k] == ' ' || f[k] == '\n')
  {
    var f := Client.MeasureFrame(p, payload);
    var t := Client.MeasureText(p);
    var k := |Pad5(p)| + 2;
    Client.MeasureTextHead(p);
    Client.FrameKeepsText(p, payload);
    KeptPrefix(f, t, Min(|t|, |f| - 1), k);
  }

  /** Bytes that agree with a text on its first n characters agree on any
      shorter prefix, and on each of those characters. */
  lemma KeptPrefix(f: seq<char>, t: seq<char>, n: nat, k: nat)
    requires k <= n <= |f| && n <= |t| && f[..n] == t[..n]
    ensures f[..k] == t[..k]
    ensures k < n ==> f[k] == t[k]
  {
    assert f[..k] == f[..n][..k] && t[..k] == t[..n][..k];
    if k < n {
      assert f[k] == f[..n][k] && t[k] == t[..n][k];
    }
  }

  /** The head of probe p's frame carries p. */
  lemma FrameHeadNumber(p: nat, payload: nat)
    requires Client.NumberFits(p, payload)
    ensures Server.HeadNumber(Client.MeasureFrame(p, payload)) == Some(p)
  {
    FrameHead(p, payload);
    Server.HeadNumberOf(Client.MeasureFrame(p, payload), Pad5(p));
  }

  /** Cross-file round trip: the server's `parseMeasure` on a buffer that
      starts with the client's frame for probe p, whatever follows it,
      succeeds exactly when p is the number it expects. */
  lemma MeasureRoundTrip(p: nat, payload: nat, tail: seq<char>, expected: int)
    requires Client.NumberFits(p, payload)
    ensures Server.ParseMeasure(Client.MeasureFrame(p, payload) + tail, expected) <==> p == expected
  {
    FrameHeadNumber(p, payload);
    Server.HeadDecides(Client.MeasureFrame(p, payload), tail, expected);
  }

  /** As written: a probe number too long for its frame is cut. The head
      keeps the number's first payload + 5 digits before the closing
      newline and so carries a smaller number, and `parseMeasure` rejects
      the probe even when it is the one the server expects. */
  lemma CutFrameMisread(p: nat, payload: nat, tail: seq<char>)
    requires !Client.NumberFits(p, payload)
    ensures var d := Pad5(p);
      var cut := d[..payload + 5];
      && AllDigits(cut)
      && Value(cut) < p
      && Server.HeadNumber(Client.MeasureFrame(p, payload)) == Some(Value(cut))
      && !Server.ParseMeasure(Client.MeasureFrame(p, payload) + tail, p)
  {
    CutValueBelow(p, payload + 5);
    CutFrameHead(p, payload);
    Server.HeadDecides(Client.MeasureFrame(p, payload), tail, p);
  }

  /** The first `len` characters of a `%05d` number longer than `len` are
      digits whose value is below the number. */
  lemma CutValueBelow(p: nat, len: nat)
    requires 5 <= len < |Pad5(p)|
    ensures AllDigits(Pad5(p)[..len])
    ensures Value(Pad5(p)[..len]) < p
  {
    var cut := Pad5(p)[..len];
    assert AllDigits(cut) by {
      forall i | 0 <= i < len
        ensures IsDigit(cut[i])
      {
        assert cut[i] == Pad5(p)[i];
      }
    }
    ValueBelow(cut);
    Pad5Width(p, len);
  }

  /** The head of a frame whose number does not fit carries the number's
      first payload + 5 digits. */
  lemma CutFrameHead(p: nat, payload: nat)
    requires !Client.NumberFits(p, payload)
    ensures Server.HeadNumber(Client.MeasureFrame(p, payload)) == Some(Value(Pad5(p)[..payload + 5]))
  {
    var f := Client.MeasureFrame(p, payload);
    var t := Client.MeasureText(p);
    var d := Pad5(p);
    var len := payload + 5;
    Client.MeasureTextHead(p);
    Client.FrameKeepsText(p, payload);
    KeptPrefix(f, t, Min(|t|, |f| - 1), len + 2);
    CutHead(t, d, len);
    HeadNumberOfCut(f, d[..len]);
  }

  /** A text starting "m <digits>" starts "m " and the first `len` digits. */
  lemma CutHead(t: string, d: string, len: nat)
    requires AllDigits(d) && len <= |d| && |d| + 2 <= |t|
    requires t[..|d| + 2] == [Client.PHASE_MEASURE] + " " + d
    ensures AllDigits(d[..len])
    ensures t[..len + 2] == [Client.PHASE_MEASURE] + " " + d[..len]
  {
    assert t[..len + 2] == t[..|d| + 2][..len + 2];
  }

  lemma HeadNumberOfCut(f: seq<char>, cut: string)
    requires 0 < |cut| && AllDigits(cut)
    requires |f| == |cut| + 3 && f[|f| - 1] == '\n'
    requires f[..|cut| + 2] == [Client.PHASE_MEASURE] + " " + cut
    ensures Server.HeadNumber(f) == Some(Value(cut))
  {
    Server.HeadNumberOf(f, cut);
  }

  /** The HELLO line "h <kind> <d1> <d2> <d3>\n" */
  function HelloLine(kind: string, d1: string, d2: string, d3: string): string {
    [Server.PHASE_HELLO] + ([' '] + (kind + ([' '] + (d1 + ([' '] + (d2 + ([' '] + (d3 + ['\n']))))))))
  }

  lemma HelloLineHasNoNul(kind: string, d1: string, d2: string, d3: string)
    requires forall i :: 0 <= i < |kind| ==> kind[i] != NUL
    requires AllDigits(d1) && AllDigits(d2) && AllDigits(d3)
    ensures NUL !in HelloLine(kind, d1, d2, d3)
  {
    var line := HelloLine(kind, d1, d2, d3);
    forall i | 0 <= i < |line|
      ensures line[i] != NUL
    {
      var k := |kind|;
      if 2 <= i < 2 + k {
        assert line[i] == kind[i - 2];
      } else if 3 + k <= i < 3 + k + |d1| {
        assert line[i] == d1[i - 3 - k];
      } else if 4 + k + |d1| <= i < 4 + k + |d1| + |d2| {
        assert line[i] == d2[i - 4 - k - |d1|];
      } else if 5 + k + |d1| + |d2| <= i < 5 + k + |d1| + |d2| + |d3| {
        assert line[i] == d3[i - 5 - k - |d1| - |d2|];
      }
    }
  }

  /** The items "%c %s %ld %ld %d" stores for a HELLO line */
  lemma ScanHelloLine(kind: string, d1: string, d2: string, d3: string, after: string)
    requires 0 < |kind| && forall i :: 0 <= i < |kind| ==> !IsSpace(kind[i])
    requires 0 < |d1| && AllDigits(d1) && 0 < |d2| && AllDigits(d2) && 0 < |d3| && AllDigits(d3)
    ensures var scan := Run(Server.HELLO_FORMAT, HelloLine(kind, d1, d2, d3) + after);
      && 5 <= |scan.items|
      && scan.items[0] == CharItem(Server.PHASE_HELLO)
      && scan.items[3] == IntItem(Value(d2))
      && scan.items[4] == IntItem(Value(d3))
  {
    HelloLineThen(kind, d1, d2, d3, after);
    StepCharWordThreeDec(Server.HELLO_FORMAT, Server.PHASE_HELLO, kind, d1, d2, d3, ['\n'] + after);
  }

  /** A HELLO line followed by anything, associated to the right */
  lemma HelloLineThen(kind: string, d1: string, d2: string, d3: string, after: string)
    ensures HelloLine(kind, d1, d2, d3) + after ==
      [Server.PHASE_HELLO] + ([' '] + (kind + ([' '] + (d1 + ([' '] + (d2 + ([' '] + (d3 + (['\n'] + after)))))))))
  {
  }

  /** `parseHello` on a buffer that starts with a HELLO line takes the
      message size from its fourth field and the delay from its fifth,
      whatever follows the line. */
  lemma ParseHelloOfLine(kind: string, d1: string, d2: string, d3: string, tail: seq<char>)
    requires 0 < |kind| && forall i :: 0 <= i < |kind| ==> !IsSpace(kind[i]) && kind[i] != NUL
    requires 0 < |d1| && AllDigits(d1) && 0 < |d2| && AllDigits(d2) && 0 < |d3| && AllDigits(d3)
    ensures Server.ParseHello(HelloLine(kind, d1, d2, d3) + tail) ==
      Some(Server.Config(Some(Value(d2)), Some(Value(d3)), 1))
  {
    var line := HelloLine(kind, d1, d2, d3);
    HelloLineHasNoNul(kind, d1, d2, d3);
    CStringOfPrefix(line, tail);
    ScanHelloLine(kind, d1, d2, d3, CString(tail));
  }

  lemma HelloLineAssociates(kind: string, d1: string, d2: string, d3: string)
    ensures [Server.PHASE_HELLO] + " " + kind + " " + d1 + " " + d2 + " " + d3 + "\n" == HelloLine(kind, d1, d2, d3)
  {
  }

  /** The client's HELLO is the HELLO line of its three numbers. */
  lemma EncodeHelloIsLine(kind: string, probes: nat, size: nat, delay: nat)
    requires Client.IsMeasureName(kind)
    requires probes < 100000 && size < 100000 && delay < 100000
    ensures Client.EncodeHello(kind, probes, size, delay) == HelloLine(kind, Pad5(probes), Pad5(size), Pad5(delay))
  {
    Client.HelloNotTruncated(kind, probes, size, delay);
    HelloLineAssociates(kind, Pad5(probes), Pad5(size), Pad5(delay));
  }

  /** Cross-file round trip: the server's `parseHello` on a buffer that
      starts with the client's HELLO recovers the payload size and the
      delay the client announced, and starts counting probes at 1. */
  lemma HelloRoundTrip(kind: string, probes: nat, size: nat, delay: nat, tail: seq<char>)
    requires Client.IsMeasureName(kind)
    requires probes < 100000 && size < 100000 && delay < 100000
    ensures Server.ParseHello(Client.EncodeHello(kind, probes, size, delay) + tail) ==
      Some(Server.Config(Some(size), Some(delay), 1))
  {
    EncodeHelloIsLine(kind, probes, size, delay);
    ParseHelloOfLine(kind, Pad5(probes), Pad5(size), Pad5(delay), tail);
  }

  /** The first 26 characters of a thput HELLO whose delay field is longer
      than six digits, followed by anything, associated to the right */
  lemma CutHelloThen(kind: string, d1: string, d2: string, d3: string, r: string)
    ensures [Server.PHASE_HELLO] + " " + kind + " " + d1 + " " + d2 + " " + d3 + r ==
      [Server.PHASE_HELLO] + ([' '] + (kind + ([' '] + (d1 + ([' '] + (d2 + ([' '] + (d3 + r))))))))
  {
  }

  /** "%c %s %ld %ld %d" on a HELLO line cut right after a digit of its
      last field, followed by a non-digit or nothing */
  lemma ScanCutHelloLine(kind: string, d1: string, d2: string, d3: string, r: string)
    requires 0 < |kind| && forall i :: 0 <= i < |kind| ==> !IsSpace(kind[i])
    requires 0 < |d1| && AllDigits(d1) && 0 < |d2| && AllDigits(d2) && 0 < |d3| && AllDigits(d3)
    requires |r| == 0 || !IsDigit(r[0])
    ensures var scan := Run(Server.HELLO_FORMAT, [Server.PHASE_HELLO] + " " + kind + " " + d1 + " " + d2 + " " + d3 + r);
      && 5 <= |scan.items|
      && scan.items[0] == CharItem(Server.PHASE_HELLO)
      && scan.items[3] == IntItem(Value(d2))
      && scan.items[4] == IntItem(Value(d3))
  {
    CutHelloThen(kind, d1, d2, d3, r);
    StepCharWordThreeDec(Server.HELLO_FORMAT, Server.PHASE_HELLO, kind, d1, d2, d3, r);
  }

  /** `parseHello` on a HELLO line cut right after a digit of its last
      field takes that field's digits so far as the delay, when a NUL or
      another non-digit follows. */
  lemma ParseHelloOfCutLine(kind: string, d1: string, d2: string, d3: string, tail: seq<char>)
    requires 0 < |kind| && NUL !in kind && forall i :: 0 <= i < |kind| ==> !IsSpace(kind[i])
    requires 0 < |d1| && AllDigits(d1) && 0 < |d2| && AllDigits(d2) && 0 < |d3| && AllDigits(d3)
    requires |tail| == 0 || !IsDigit(tail[0])
    ensures Server.ParseHello([Server.PHASE_HELLO] + " " + kind + " " + d1 + " " + d2 + " " + d3 + tail) ==
      Some(Server.Config(Some(Value(d2)), Some(Value(d3)), 1))
  {
    var line := [Server.PHASE_HELLO] + " " + kind + " " + d1 + " " + d2 + " " + d3;
    assert NUL !in d1 && NUL !in d2 && NUL !in d3;
    assert NUL !in line;
    CStringOfPrefix(line, tail);
    var r := CString(tail);
    assert |r| == 0 || r[0] == tail[0];
    ScanCutHelloLine(kind, d1, d2, d3, r);
  }

  /** As written: a thput HELLO whose delay takes seven digits or more does
      not fit the 27-byte `snprintf`, so the client sends only its first 26
      characters. The server's `%d` then reads the first six digits of the
      delay, up to the NUL or other non-digit that follows in its buffer,
      and stores a delay smaller than the one announced. */
  lemma CutThputHelloMisreadsDelay(probes: nat, size: nat, delay: nat, tail: seq<char>)
    requires probes < 100000 && size < 100000 && 1000000 <= delay
    requires |tail| == 0 || !IsDigit(tail[0])
    ensures var hello := Client.EncodeHello(Client.MEASURE_THPUT, probes, size, delay);
      var d := Pad5(delay);
      && |hello| == Client.HELLO_MESSAGE_SIZE - 1 < |Client.HelloText(Client.MEASURE_THPUT, probes, size, delay)|
      && 6 < |d| && AllDigits(d[..6]) && Value(d[..6]) < delay
      && Server.ParseHello(hello + tail) == Some(Server.Config(Some(size), Some(Value(d[..6])), 1))
  {
    var kind := Client.MEASURE_THPUT;
    var p, sz, d := Pad5(probes), Pad5(size), Pad5(delay);
    Pad5Width(probes, 5);
    Pad5Width(size, 5);
    Pad5Width(delay, 5);
    ValueBelow(d);
    assert Pow10(6) == 1000000;
    var cut := d[..6];
    ValueBelow(cut);
    var x := [Server.PHASE_HELLO] + " " + kind + " " + p + " " + sz + " ";
    assert Client.HelloText(kind, probes, size, delay) == x + d + "\n";
    assert Client.EncodeHello(kind, probes, size, delay) == x + cut;
    ParseHelloOfCutLine(kind, p, sz, cut, tail);
  }

  /** Corrected: formatted into a buffer as large as the server's, the
      HELLO of any fields that fit a C `int` is sent whole, and the server
      recovers the size and the delay the client announced. */
  lemma WideHelloRoundTrip(kind: string, probes: nat, size: nat, delay: nat, tail: seq<char>)
    requires Client.IsMeasureName(kind)
    requires probes < 0x8000_0000 && size < 0x8000_0000 && delay < 0x8000_0000
    ensures var hello := Client.EncodeWideHello(kind, probes, size, delay);
      && hello == Client.HelloText(kind, probes, size, delay)
      && |hello| <= Server.HELLO_MESSAGE_SIZE
      && Server.ParseHello(hello + tail) == Some(Server.Config(Some(size), Some(delay), 1))
  {
    WideHelloIsWhole(kind, probes, size, delay);
    HelloLineAssociates(kind, Pad5(probes), Pad5(size), Pad5(delay));
    ParseHelloOfLine(kind, Pad5(probes), Pad5(size), Pad5(delay), tail);
  }

  /** Fields that fit a C `int` take at most ten digits each, so the
      HELLO is at most 41 characters and the wide buffer keeps it whole. */
  lemma WideHelloIsWhole(kind: string, probes: nat, size: nat, delay: nat)
    requires Client.IsMeasureName(kind)
    requires probes < 0x8000_0000 && size < 0x8000_0000 && delay < 0x8000_0000
    ensures |Client.HelloText(kind, probes, size, delay)| <= 41
    ensures Client.EncodeWideHello(kind, probes, size, delay) == Client.HelloText(kind, probes, size, delay)
  {
    assert Pow10(10) == 10000000000;
    Pad5Width(probes, 10);
    Pad5Width(size, 10);
    Pad5Width(delay, 10);
  }

  // ---------------------------------------------------------------- probe runs

  /** The frames of probes `from` to n-1 carry `from`, `from`+1, ... at
      their heads. */
  lemma {:induction false} FramesNumberedFrom(n: nat, payload: nat, from: nat)
    requires from <= n
    requires from < n ==> Client.NumberFits(n - 1, payload)
    ensures Server.NumberedFrom(Client.Frames(n, payload)[from..], from)
    decreases n - from
  {
    if from < n {
      var chunks := Client.Frames(n, payload)[from..];
      Client.FrameOfProbe(n, payload, from);
      Client.MeasureTextGrows(from, n - 1);
      FrameHeadNumber(from, payload);
      assert chunks[1..] == Client.Frames(n, payload)[from + 1..];
      FramesNumberedFrom(n, payload, from + 1);
    }
  }

  /** Probe 0 reaching a fresh connection is rejected, answered with
      the head of receivedData1, and the counter stays at 1. */
  lemma ProbeZeroOnFreshConnection(init1: seq<char>, init2: seq<char>, payload: nat)
    requires |init1| == |init2| && payload + Client.MEASURE_MESSAGE_SIZE <= |init1|
    ensures var r := Server.Serve(Server.FreshState(init1, init2), Server.Chunk(Client.MeasureFrame(0, payload)));
      && !r.accepted
      && r.sent == init1[..payload + Client.MEASURE_MESSAGE_SIZE]
      && r.next.expected == 1
  {
    var frame := Client.MeasureFrame(0, payload);
    MeasureRoundTrip(0, payload, init2[|frame|..], 1);
  }

  /** As written: the client numbers its probes from 0 and the server
      expects 1, so probe 0 is rejected and answered with whatever the
      storage of receivedData1 held; every later probe is accepted. */
  lemma OnlyFirstProbeRejected(init1: seq<char>, init2: seq<char>, payload: nat, n: nat)
    requires 0 < n && Client.NumberFits(n - 1, payload)
    requires |init1| == |init2| && payload + Client.MEASURE_MESSAGE_SIZE <= |init1|
    ensures forall i :: 0 <= i < n ==> |Client.Frames(n, payload)[i]| <= |init1|
    ensures var t := Server.ServeAll(Server.FreshState(init1, init2), Client.Frames(n, payload));
      && !t.accepted[0]
      && t.sent[0] == init1[..payload + Client.MEASURE_MESSAGE_SIZE]
      && false !in t.accepted[1..]
      && t.sent[1..] == Client.Frames(n, payload)[1..]
      && t.final.expected == n
  {
    var chunks := Client.Frames(n, payload);
    RunFramesFrom(n, payload);
    Server.RejectedThenInOrder(Server.FreshState(init1, init2), chunks);
  }

  /** The run's frames are each a frame long; the first carries 0 and the
      rest carry 1, 2, ... */
  lemma RunFramesFrom(n: nat, payload: nat)
    requires 0 < n && Client.NumberFits(n - 1, payload)
    ensures forall i :: 0 <= i < n ==> |Client.Frames(n, payload)[i]| == payload + Client.MEASURE_MESSAGE_SIZE
    ensures Server.HeadNumber(Client.Frames(n, payload)[0]) == Some(0)
    ensures Server.NumberedFrom(Client.Frames(n, payload)[1..], 1)
  {
    Client.FrameLengths(n, payload);
    Client.FrameOfProbe(n, payload, 0);
    FrameHeadNumber(0, payload);
    FramesNumberedFrom(n, payload, 1);
  }

  /** Corrected: with the counter starting at the client's first number,
      every probe of the run is accepted and echoed. */
  lemma AlignedProbesAllAccepted(init1: seq<char>, init2: seq<char>, payload: nat, n: nat)
    requires 0 < n ==> Client.NumberFits(n - 1, payload)
    requires |init1| == |init2| && payload + Client.MEASURE_MESSAGE_SIZE <= |init1|
    ensures forall i :: 0 <= i < n ==> |Client.Frames(n, payload)[i]| <= |init1|
    ensures var t := Server.ServeAll(Server.AlignedState(init1, init2), Client.Frames(n, payload));
      && (forall i :: 0 <= i < n ==> t.accepted[i])
      && t.sent == Client.Frames(n, payload)
      && t.final.expected == n
  {
    var s := Server.AlignedState(init1, init2);
    var chunks := Client.Frames(n, payload);
    Client.FrameLengths(n, payload);
    FramesNumberedFrom(n, payload, 0);
    assert chunks[0..] == chunks;
    Server.InOrderAllAccepted(s, chunks);
  }

  // ---------------------------------------------------------------- handshake

  /** The client's HELLO fits the server's 128-byte buffer and is 24 or 26
      bytes long. */
  lemma HelloLength(kind: string, probes: nat, size: nat, delay: nat)
    requires Client.IsMeasureName(kind)
    requires probes < 100000 && size < 100000 && delay < 100000
    ensures var hello := Client.EncodeHello(kind, probes, size, delay);
      |hello| == 21 + |kind| && (|hello| == 24 || |hello| == 26)
  {
    Client.HelloNotTruncated(kind, probes, size, delay);
  }

  /** As written: every HELLO the client sends parses, the reply goes out,
      and the server then exits because it sent 15 bytes, not the 24 or 26
      it received. */
  lemma HandshakeAlwaysExits(buf: seq<char>, kind: string, probes: nat, size: nat, delay: nat)
    requires |buf| == Server.HELLO_MESSAGE_SIZE
    requires Client.IsMeasureName(kind)
    requires probes < 100000 && size < 100000 && delay < 100000
    ensures var hello := Client.EncodeHello(kind, probes, size, delay);
      |hello| <= Server.HELLO_MESSAGE_SIZE &&
      Server.AcceptHelloAsWritten(buf, Server.Chunk(hello)) == Server.Handshake(Server.HELLO_REPLY, Server.SendMismatch)
  {
    var hello := Client.EncodeHello(kind, probes, size, delay);
    HelloLength(kind, probes, size, delay);
    HelloRoundTrip(kind, probes, size, delay, buf[|hello|..]);
  }

  /** Corrected: the client's HELLO is accepted with the size and delay it
      announced, and the server starts counting probes at 1. */
  lemma HandshakeAccepts(buf: seq<char>, kind: string, probes: nat, size: nat, delay: nat)
    requires |buf| == Server.HELLO_MESSAGE_SIZE
    requires Client.IsMeasureName(kind)
    requires probes < 100000 && size < 100000 && delay < 100000
    ensures var hello := Client.EncodeHello(kind, probes, size, delay);
      |hello| <= Server.HELLO_MESSAGE_SIZE &&
      Server.AcceptHello(buf, Server.Chunk(hello)) ==
        Server.Handshake(Server.HELLO_REPLY, Server.Accepted(Server.Config(Some(size), Some(delay), 1)))
  {
    var hello := Client.EncodeHello(kind, probes, size, delay);
    HelloLength(kind, probes, size, delay);
    HelloRoundTrip(kind, probes, size, delay, buf[|hello|..]);
  }

  /** The server's reply, NUL included and whatever follows it in the
      client's buffer, is the ready line `sendHello` waits for. */
  lemma HelloReplyIsReady(stale: seq<char>)
    ensures Client.SendHelloResult(Server.HELLO_REPLY + stale) == 1
  {
    assert Server.HELLO_REPLY + stale == Server.MEASURE_ACCEPTED + ([NUL] + stale);
    CStringOfPrefix(Server.MEASURE_ACCEPTED, [NUL] + stale);
  }

  // ---------------------------------------------------------------- bye

  /** The BYE has no branch of its own: it is a rejected probe, the
      counter stays, the other buffer is sent back and the loop goes on.
      Once the client has closed, each `recv` returns 0 bytes, the buffer
      still starts with the BYE, and the loop spins in place. */
  lemma ByeIsRejectedProbe(s: Server.ServeState)
    requires |s.current| == |s.other| && |Client.BYE_MESSAGE| <= |s.current|
    ensures var r := Server.Serve(s, Server.Chunk(Client.BYE_MESSAGE));
      && r.Reply? && !r.accepted
      && r.next.expected == s.expected
      && r.sent == s.other[..|Client.BYE_MESSAGE|]
      && Server.Serve(r.next, Server.Chunk([])) == Server.Reply(r.next, [], false)
  {
    var r := Server.Serve(s, Server.Chunk(Client.BYE_MESSAGE));
    var buf := Server.Receive(s.current, Client.BYE_MESSAGE);
    Server.WrongPhaseRejected(buf, s.expected);
    assert Server.Receive(r.next.current, []) == buf;
    Server.WrongPhaseRejected(buf, r.next.expected);
  }

  // ---------------------------------------------------------------- client verdict

  /** The replies a client run gets from the server as written: the stale
      head of receivedData1 for probe 0, then the echo of each probe */
  function ServerReplies(first: seq<char>, payload: nat, n: nat): (rs: seq<Client.Reply>)
    requires 0 < n
    ensures |rs| == n
  {
    seq(n, k requires 0 <= k < n => Client.Received(if k == 0 then first else Client.MeasureFrame(k, payload)))
  }

  /** The replies of ServerReplies are those the serve loop as written
      sends for the run's frames on a fresh connection, one for one. */
  lemma ServedRepliesAreServerReplies(init1: seq<char>, init2: seq<char>, payload: nat, n: nat)
    requires 0 < n && Client.NumberFits(n - 1, payload)
    requires |init1| == |init2| && payload + Client.MEASURE_MESSAGE_SIZE <= |init1|
    ensures forall i :: 0 <= i < n ==> |Client.Frames(n, payload)[i]| <= |init1|
    ensures var t := Server.ServeAll(Server.FreshState(init1, init2), Client.Frames(n, payload));
      && |t.sent| == n
      && forall k :: 0 <= k < n ==>
        ServerReplies(init1[..payload + Client.MEASURE_MESSAGE_SIZE], payload, n)[k] == Client.Received(t.sent[k])
  {
    OnlyFirstProbeRejected(init1, init2, payload, n);
    var t := Server.ServeAll(Server.FreshState(init1, init2), Client.Frames(n, payload));
    RepliesOfSent(t.sent, init1[..payload + Client.MEASURE_MESSAGE_SIZE], payload, n);
  }

  /** Replies carrying a stale first answer and then the echoes of frames
      1 to n-1 are ServerReplies. */
  lemma RepliesOfSent(sent: seq<seq<char>>, first: seq<char>, payload: nat, n: nat)
    requires 0 < n && |sent| == n
    requires sent[0] == first && sent[1..] == Client.Frames(n, payload)[1..]
    ensures forall k :: 0 <= k < n ==> ServerReplies(first, payload, n)[k] == Client.Received(sent[k])
  {
    var chunks := Client.Frames(n, payload);
    forall k | 1 <= k < n
      ensures ServerReplies(first, payload, n)[k] == Client.Received(sent[k])
    {
      Client.FrameOfProbe(n, payload, k);
      assert sent[k] == sent[1..][k - 1] == chunks[1..][k - 1] == chunks[k];
    }
  }

  /** A client run against the serve loop as written, each reply being
      what the loop sends: it completes exactly when the initial bytes of
      receivedData1, sent back for probe 0, do not read as the invalid-
      measurement line, and otherwise aborts at probe 0. */
  lemma ServedRunCompletesUnlessStaleReplyInvalid(init1: seq<char>, init2: seq<char>, payload: nat, n: nat)
    requires 0 < n && Client.NumberFits(n - 1, payload)
    requires |init1| == |init2| && payload + Client.MEASURE_MESSAGE_SIZE <= |init1|
    ensures forall i :: 0 <= i < n ==> |Client.Frames(n, payload)[i]| <= |init1|
    ensures var t := Server.ServeAll(Server.FreshState(init1, init2), Client.Frames(n, payload));
      var r := Client.ProbeRun(n, seq(n, k requires 0 <= k < n => Client.Received(t.sent[k])));
      && (r.outcome.Completed? <==> !Client.IsErrorMeasure(init1[..payload + Client.MEASURE_MESSAGE_SIZE]))
      && (r.outcome.Aborted? ==> r.outcome == Client.Aborted(0, Client.InvalidMeasurement))
  {
    var first := init1[..payload + Client.MEASURE_MESSAGE_SIZE];
    ServedRepliesAreServerReplies(init1, init2, payload, n);
    var t := Server.ServeAll(Server.FreshState(init1, init2), Client.Frames(n, payload));
    var served := seq(n, k requires 0 <= k < n => Client.Received(t.sent[k]));
    var replies := ServerReplies(first, payload, n);
    assert forall k :: 0 <= k < n ==> served[k] == replies[k];
    assert served == replies;
    RunCompletesUnlessStaleReplyInvalid(first, payload, n);
  }

  /** Against the server as written, a run completes exactly when the
      stale bytes sent back for probe 0 do not read as the invalid-
      measurement line; otherwise it aborts at probe 0. */
  lemma RunCompletesUnlessStaleReplyInvalid(first: seq<char>, payload: nat, n: nat)
    requires 0 < n
    ensures var r := Client.ProbeRun(n, ServerReplies(first, payload, n));
      (r.outcome.Completed? <==> !Client.IsErrorMeasure(first))
      && (r.outcome.Aborted? ==> r.outcome == Client.Aborted(0, Client.InvalidMeasurement))
  {
    var replies := ServerReplies(first, payload, n);
    forall k | 1 <= k < n
      ensures Client.Verdict(replies[k]).None?
    {
      LaterReplyPasses(first, payload, n, k);
    }
    Client.ProbeRunDecidedByFirst(n, replies);
  }

  /** Every reply after the first echoes its own frame, which passes. */
  lemma LaterReplyPasses(first: seq<char>, payload: nat, n: nat, k: nat)
    requires 1 <= k < n
    ensures Client.Verdict(ServerReplies(first, payload, n)[k]).None?
  {
    assert ServerReplies(first, payload, n)[k] == Client.Received(Client.MeasureFrame(k, payload));
    Client.FrameIsNeverInvalid(k, payload);
  }
}

=== FILE: text.dfy ===
/**
 Characters as the C library sees them: the C-string view of a buffer,
 `isspace`, decimal digits and the `%05d` conversion of `printf`.
 */
module Text {

  datatype Option<T> = None | Some(value: T)

  const NUL: char := '\0'

  function Min(a: int, b: int): int { if a <= b then a else b }

  function Max(a: int, b: int): int { if a >= b then a else b }

  /** `isspace` in the "C" locale */
  predicate IsSpace(c: char) {
    c == ' ' || c == '\t' || c == '\n' || c == '\U{B}' || c == '\U{C}' || c == '\r'
  }

  predicate IsDigit(c: char) { '0' <= c <= '9' }

  predicate AllDigits(s: string) { forall i :: 0 <= i < |s| ==> IsDigit(s[i]) }

  function DigitChar(d: int): (c: char)
    requires 0 <= d < 10
    ensures IsDigit(c)
  {
    ('0' as int + d) as char
  }

  /** The string a C function sees in a buffer: the characters before the
      first NUL, or the whole buffer when it holds none. */
  function CString(buf: seq<char>): (s: seq<char>)
    ensures s <= buf
    ensures NUL !in s
    ensures |s| < |buf| ==> buf[|s|] == NUL
  {
    if |buf| == 0 || buf[0] == NUL then [] else [buf[0]] + CString(buf[1..])
  }

  /** A NUL-free prefix survives into the C-string view unchanged. */
  lemma {:induction false} CStringOfPrefix(x: seq<char>, y: seq<char>)
    requires NUL !in x
    ensures CString(x + y) == x + CString(y)
    decreases |x|
  {
    if |x| > 0 {
      assert (x + y)[0] == x[0];
      assert (x + y)[1..] == x[1..] + y;
      CStringOfPrefix(x[1..], y);
    } else {
      assert x + y == y;
    }
  }
  /** The C-string view of a buffer is a given NUL-free text exactly when
      the buffer begins with it and ends or holds a NUL right after it. */
  lemma CStringIs(buf: seq<char>, s: seq<char>)
    requires NUL !in s
    ensures CString(buf) == s <==> s <= buf && (|s| == |buf| || buf[|s|] == NUL)
  {
    if s <= buf && (|s| == |buf| || buf[|s|] == NUL) {
      assert buf == s + buf[|s|..];
      CStringOfPrefix(s, buf[|s|..]);
      assert s + [] == s;
    }
  }


  /** The decimal spelling of n without leading zeros, as `%d` writes it. */
  function Digits(n: nat): (s: string)
    ensures 0 < |s|
    ensures AllDigits(s)
    decreases n
  {
    if n < 10 then [DigitChar(n)] else Digits(n / 10) + [DigitChar(n % 10)]
  }

  /** The number a run of decimal digits denotes. */
  function Value(s: string): nat
    requires AllDigits(s)
  {
    if |s| == 0 then 0 else Value(s[..|s| - 1]) * 10 + (s[|s| - 1] as int - '0' as int)
  }

  function Zeros(k: nat): (s: string)
    ensures |s| == k
    ensures forall i :: 0 <= i < k ==> s[i] == '0'
  {
    seq(k, _ => '0')
  }

  function Pow10(k: nat): nat { if k == 0 then 1 else 10 * Pow10(k - 1) }

  lemma {:induction false} ValueOfDigits(n: nat)
    ensures Value(Digits(n)) == n
    decreases n
  {
    var s := Digits(n);
    if n >= 10 {
      assert s[..|s| - 1] == Digits(n / 10);
      ValueOfDigits(n / 10);
    }
  }

  lemma {:induction false} ValueOfZeros(k: nat)
    ensures Value(Zeros(k)) == 0
  {
    if k > 0 {
      assert Zeros(k)[..k - 1] == Zeros(k - 1);
      ValueOfZeros(k - 1);
    }
  }

  /** Leading zeros do not change the value of a digit run. */
  lemma {:induction false} ValueIgnoresLeadingZeros(k: nat, d: string)
    requires AllDigits(d)
    ensures AllDigits(Zeros(k) + d)
    ensures Value(Zeros(k) + d) == Value(d)
    decreases |d|
  {
    var s := Zeros(k) + d;
    if |d| == 0 {
      assert s == Zeros(k);
      ValueOfZeros(k);
    } else {
      assert s[..|s| - 1] == Zeros(k) + d[..|d| - 1];
      ValueIgnoresLeadingZeros(k, d[..|d| - 1]);
    }
  }

  /** A number below 10^k has at most k digits. */
  lemma {:induction false} DigitsWidth(n: nat, k: nat)
    requires 0 < k
    ensures n < Pow10(k) ==> |Digits(n)| <= k
    decreases k
  {
    if n >= 10 && n < Pow10(k) {
      if k > 1 {
        assert n / 10 < Pow10(k - 1);
        DigitsWidth(n / 10, k - 1);
      }
    }
  }

  /** A larger number never has fewer digits. */
  lemma {:induction false} DigitsMonotone(a: nat, b: nat)
    requires a <= b
    ensures |Digits(a)| <= |Digits(b)|
    decreases b
  {
    if a >= 10 {
      DigitsMonotone(a / 10, b / 10);
    }
  }

  /** `%05d` of a non-negative number: its digits left-padded with '0' to width five. */
  function Pad5(n: nat): (s: string)
    ensures AllDigits(s)
    ensures 5 <= |s|
    ensures Value(s) == n
    ensures n < 100000 ==> |s| == 5
  {
    var d := Digits(n);
    ValueOfDigits(n);
    assert Pow10(5) == 100000;
    if |d| < 5 then
      ValueIgnoresLeadingZeros(5 - |d|, d);
      DigitsWidth(n, 5);
      Zeros(5 - |d|) + d
    else
      DigitsWidth(n, 5);
      assert n < 100000 ==> |d| == 5;
      d
  }

  /** A run of k digits denotes a number below 10^k. */
  lemma {:induction false} ValueBelow(s: string)
    requires AllDigits(s)
    ensures Value(s) < Pow10(|s|)
    decreases |s|
  {
    if |s| > 0 {
      ValueBelow(s[..|s| - 1]);
    }
  }

  /** 10^j <= 10^k when j <= k. */
  lemma {:induction false} Pow10Monotone(j: nat, k: nat)
    requires j <= k
    ensures Pow10(j) <= Pow10(k)
    decreases k
  {
    if j < k {
      Pow10Monotone(j, k - 1);
    }
  }

  /** `%05d` of n takes more than five characters exactly when n has six
      digits or more, and at most k >= 5 characters exactly when n < 10^k. */
  lemma Pad5Width(n: nat, k: nat)
    requires 5 <= k
    ensures |Pad5(n)| > 5 <==> n >= 100000
    ensures |Pad5(n)| <= k <==> n < Pow10(k)
  {
    ValueBelow(Pad5(n));
    assert Pow10(5) == 100000;
    DigitsWidth(n, k);
    if |Pad5(n)| <= k {
      Pow10Monotone(|Pad5(n)|, k);
    }
  }

  /** The sequence f(0), f(1), ..., f(n-1) */
  function Tabulate<T>(n: nat, f: nat -> T): (s: seq<T>)
    ensures |s| == n
  {
    if n == 0 then [] else Tabulate(n - 1, f) + [f(n - 1)]
  }

  lemma {:induction false} TabulateAt<T>(n: nat, f: nat -> T, k: nat)
    requires k < n
    ensures Tabulate(n, f)[k] == f(k)
  {
    if k < n - 1 {
      TabulateAt(n - 1, f, k);
    }
  }

  lemma TabulateSnoc<T>(n: nat, f: nat -> T)
    ensures Tabulate(n + 1, f) == Tabulate(n, f) + [f(n)]
  {
  }
}
